=== FILE: README.md ===
# SketchToAI core in Dafny

SketchToAI is a WPF drawing window that lets the user sketch, downsamples
the sketch to a small grey-scale image and sends it, one line of text per
image, to an external analyzer process (for example a digit recogniser)
that answers with one line. This project models three parts of it:

* **`CliServerHost`**: the host that owns the analyzer process. It is a
  state machine made of the host task phase (none, running, completed),
  the `IsRestarting` flag, and a bounded request channel of
  `(query, response slot)` pairs. `Start`, `Query` and `Dispose` act on it.
  Inside the host task, `Run` is the restart loop and `RunOnce` is one
  session: launch the process, then serve queued items one by one. For each
  item it writes one line, reads one line, and settles the item's slot.
  - `HostModel` states the steps of the host task as functions over a
    `HostState` value: enqueueing, the per-item `catch` (`Resolution`),
    one dequeue, the dequeue loop (`Serve`), a session (`Session`), the
    delay and the restart loop (`Supervise`). `HostProperties` proves what
    the host promises about those functions.
  - `ServerHost.CliServerHost` is the class itself. Its methods update
    fields and the shared `Channel.AsyncChannel`. `Query` is proved to step
    the state as `HostModel.Enqueue` does, `RunOnce` as `Session` and `Run`
    as `Supervise`. `Start` and `Dispose` are small enough that their
    contracts state the new state directly: only the task phase, or only
    the channel's accepting flag, changes.
  - The operating system, the pipe, the cancellation token and the timer
    are oracles: parameters that say what each call returned, where the
    code checks it.
* **`MainWindow`**:
  - `ParseCommandLineArguments`, with its local `Consume`, `CheckSwitch` and
    `Help`. It matches switches at the head of the argument list,
    ignoring case, then removes arguments in place, then splits off the
    analyzer command.
  - The query text of line 163: one token `255 - b` per pixel.
  - The single-flight coalescing of `TryAnalyze`, over the two snapshot
    references `_currentOutput` and `_analyzedOutput`.
  - `CommandLine`, `QueryText` and `Analysis` hold the reference functions
    and their lemmas. `Window.MainWindow` holds the imperative methods
    proved against them.
* **`UIHelpers.FindChild<T>`**: depth-first search over an abstract visual
  tree. Each element carries an "is a `T`" flag, an optional `Name` and
  ordered children. `Search` is proved equal to the first element of an
  independent list of hits, and the lemmas pin down the search's unusual
  rules.

Some facts the proofs establish about the code as written:

* A session sets an item's slot to `Canceled` only when `WriteLineAsync`
  throws `TaskCanceledException`. The `OperationCanceledException` of
  line 100 becomes a fault, and so does a failed read: `readLineTask.Result`
  wraps it in an `AggregateException`.
* `Dispose` only closes the channel. A host with a non-zero restart delay
  keeps relaunching its process forever.
* `--help` given alone runs `Help` and then throws. `Consume(2)` cannot
  remove two arguments from a one-element list, and nothing catches the
  exception.
* A `TryAnalyze` whose `Query` throws leaves `_analyzedOutput` set, so
  the window never sends another query.

Files: `Wrappers.dfy` (Option, Result), `Text.dfy` (join and split on
spaces, decimal numerals, ASCII lower case), `Channel.dfy`,
`HostModel.dfy`, `HostProperties.dfy`, `ServerHost.dfy`,
`CommandLine.dfy`, `QueryText.dfy`, `Analysis.dfy`, `Window.dfy`,
`VisualTree.dfy` (module `UIHelpers`).

## Model

| member | source | states |
|---|---|---|
| Channel.AsyncChannel.constructor | Src/SketchToAI/CliServerHost.cs:11-12 | the request channel starts empty, accepting, with the given capacity (16 at the only call) |
| Channel.AsyncChannel.PutAsync | Src/SketchToAI/CliServerHost.cs:47 | a put on a closed channel is rejected; with room it appends the item at the tail; on a full channel a cancelled put fails and otherwise the put waits; the queue never exceeds its capacity |
| Channel.AsyncChannel.PullAsync | Src/SketchToAI/CliServerHost.cs:88-90 | a pull takes the head item; on an empty channel it reports "not dequeued" once the channel is closed and waits otherwise |
| Channel.AsyncChannel.CompletePut | Src/SketchToAI/CliServerHost.cs:29-32 | closing the channel clears only the accepting flag; queued items stay |
| ServerHost.CliServerHost.constructor | Src/SketchToAI/CliServerHost.cs:22-26 | a new host has no task, is not restarting, has the default one-second restart delay and an empty, open channel, and keeps command and arguments |
| ServerHost.CliServerHost.IsRunning | Src/SketchToAI/CliServerHost.cs:20 | the host runs exactly when a host task exists and has not completed |
| ServerHost.CliServerHost.Start | Src/SketchToAI/CliServerHost.cs:34-40 | fails with AlreadyRunning while the host task runs; otherwise the task is running and the same host is returned; nothing else changes |
| ServerHost.CliServerHost.Query | Src/SketchToAI/CliServerHost.cs:42-49 | fails with NotRunning when no task was started or it completed; otherwise exactly one `(query, fresh Pending slot)` pair is appended, or the put fails or waits with the state unchanged |
| ServerHost.CliServerHost.Dispose | Src/SketchToAI/CliServerHost.cs:29-32 | only the channel's accepting flag is cleared; task phase, `IsRestarting` and queue are unchanged |
| ServerHost.CliServerHost.Answer | Src/SketchToAI/CliServerHost.cs:94-108 | the per-item `try`/`catch` yields the slot outcome `Resolution` assigns and the pipe operations `PipeOps` lists, never Pending |
| ServerHost.CliServerHost.Settle | Src/SketchToAI/CliServerHost.cs:91-108 | servicing the pulled head item is the dequeue step of the reference model and keeps the host invariant |
| ServerHost.CliServerHost.Admit | Src/SketchToAI/CliServerHost.cs:42-49 | a caller acting while the session waits enqueues one item or closes the channel, as the reference model says |
| ServerHost.CliServerHost.RunOnce | Src/SketchToAI/CliServerHost.cs:70-110 | one session leaves the host in exactly the state, with exactly the outcome, of the reference session `HostModel.Session` |
| ServerHost.CliServerHost.Delay | Src/SketchToAI/CliServerHost.cs:60-66 | `IsRestarting` is set for the delay and cleared by the `finally` whether the delay elapses or is cancelled |
| ServerHost.CliServerHost.Run | Src/SketchToAI/CliServerHost.cs:51-68 | the restart loop leaves the host in exactly the state of the reference loop `HostModel.Supervise` and keeps the invariant |
| HostProperties.InitialInv | Src/SketchToAI/CliServerHost.cs:11-21 | the initial host satisfies the host invariant |
| HostModel.Resolution | Src/SketchToAI/CliServerHost.cs:103-108 | the `catch` always settles the slot, and a `TaskCanceledException` never faults it |
| HostModel.Serve | Src/SketchToAI/CliServerHost.cs:87-109 | the dequeue loop ends only when the pull reports no item, while it waits, or when the wait is cancelled; it leaves the task phase, `IsRestarting`, the restart delay and the flag history alone |
| HostModel.Session | Src/SketchToAI/CliServerHost.cs:70-110 | only a cancelled token or a failed launch throws out of a session, since a failed write or read is caught per item; the restart settings are untouched |
| HostModel.Supervise | Src/SketchToAI/CliServerHost.cs:51-68 | the loop never changes the restart delay and exits normally only when it is zero; inside the delay `IsRestarting` is set; once the loop ends, by exit or by a cancelled delay, the flag is clear and the task completed |
| HostProperties.ResolutionCases | Src/SketchToAI/CliServerHost.cs:94-108 | a settled slot is never Pending; it is Canceled exactly when the write threw TaskCanceledException; it holds a result exactly when write and read succeeded and the token was not cancelled; cancellation after the read is a fault |
| HostProperties.WrittenOps | Src/SketchToAI/CliServerHost.cs:95-98 | servicing an item attempts exactly one write, of its query line (a failed write is recorded as attempted), then reads at most one line, and only when the write succeeded; every read still directly follows a write |
| HostProperties.EnqueueKeepsInv | Src/SketchToAI/CliServerHost.cs:42-48 | a put with room keeps the invariant and leaves every existing slot unchanged |
| HostProperties.DequeueKeepsInv | Src/SketchToAI/CliServerHost.cs:88-108 | servicing the head item keeps the invariant, settles that item's slot and no other |
| HostProperties.ServeEnds | Src/SketchToAI/CliServerHost.cs:87-90 | the dequeue loop ends with an empty queue; it ends normally exactly when the channel is closed, otherwise it waits or is cancelled; the task phase and restart settings are untouched |
| HostProperties.ServePrefix | Src/SketchToAI/CliServerHost.cs:87-109 | the dequeue loop only appends to the history of served items |
| HostProperties.ServeOutcomes | Src/SketchToAI/CliServerHost.cs:94-108 | the k-th item served in a session gets the outcome of the k-th write/read round trip |
| HostProperties.ServeOrder | Src/SketchToAI/CliServerHost.cs:87-101 | every item queued at the start is served, in queue order |
| HostProperties.ServeKeepsInv | Src/SketchToAI/CliServerHost.cs:87-109 | the dequeue loop keeps the invariant and never rewrites a settled slot |
| HostProperties.ServeSettles | Src/SketchToAI/CliServerHost.cs:87-109 | after the dequeue loop every served item's slot holds the outcome recorded for it |
| HostProperties.ServeSlots | Src/SketchToAI/CliServerHost.cs:87-108 | once served slots hold their outcomes, the slot of the j-th item queued when the session's loop starts holds the j-th round trip's outcome |
| HostProperties.SessionKeepsInv | Src/SketchToAI/CliServerHost.cs:70-110 | a session keeps the invariant, the task phase, `IsRestarting` and the restart delay, and never rewrites a settled slot |
| HostProperties.SessionEarlyExits | Src/SketchToAI/CliServerHost.cs:72-84 | with the token already cancelled, or a process that fails to start, a session serves nothing and changes nothing; its loop ends normally (Drained) only with a closed, empty channel |
| HostProperties.SessionServesInOrder | Src/SketchToAI/CliServerHost.cs:87-108 | in a session whose process started, the j-th queued item's slot gets the j-th reply, and the queue ends empty |
| HostProperties.BeginDelayKeepsInv | Src/SketchToAI/CliServerHost.cs:61 | entering the delay keeps the invariant and sets `IsRestarting` |
| HostProperties.EndDelayKeepsInv | Src/SketchToAI/CliServerHost.cs:64-66 | leaving the delay keeps the invariant and clears `IsRestarting` |
| HostProperties.InvIgnoresTask | Src/SketchToAI/CliServerHost.cs:13-20 | completing or starting the host task does not affect the invariant |
| HostProperties.SuperviseContract | Src/SketchToAI/CliServerHost.cs:51-68 | the restart loop swallows session exceptions and keeps the invariant; the task completes exactly when the loop exits with a zero delay or the cancelled delay throws; `IsRestarting` is true exactly while the delay is pending |
| HostProperties.ZeroDelayRunsOnce | Src/SketchToAI/CliServerHost.cs:67 | with a zero restart delay the loop runs exactly one session and never reaches a second round |
| HostProperties.CancelWaitDecides | Src/SketchToAI/CliServerHost.cs:87-90 | the dequeue loop ends by cancellation only from a cancelled wait, and a cancelled wait among its waits keeps it from being left waiting |
| HostProperties.SessionSeesCancel | Src/SketchToAI/CliServerHost.cs:70-90 | a session that ends by cancellation saw the token cancelled at its start check or while waiting, and one that saw it is not left waiting |
| HostProperties.CancelEndsRestarts | Src/SketchToAI/CliServerHost.cs:51-72 | with the host's one token staying cancelled, no session runs after one that saw it cancelled, the loop does not run out of rounds, and when that session is the first the cancelled delay ends the loop |
| HostProperties.CancelStopsRestart | Src/SketchToAI/CliServerHost.cs:51-68 | with the token staying cancelled, a session ended by cancellation is followed by a cancelled delay: the loop ends, the task completes and `IsRestarting` is clear |
| HostProperties.ClosedChannelRestartsForever | Src/SketchToAI/CliServerHost.cs:53-67 | after `Dispose`, with a non-zero delay, the loop keeps restarting sessions that serve nothing, and the task never completes |
| CommandLine.ParseInt32 | Src/SketchToAI/MainWindow.xaml.cs:83-86 | a parsed value lies in the 32-bit range, and the text is an optional sign followed by a non-empty digit string whose value it is, negated after a minus |
| CommandLine.ParseInt32Decimal | Src/SketchToAI/MainWindow.xaml.cs:83-86 | the decimal text of any in-range value, with or without a minus sign, parses back to it; the text of any value beyond the range, on either side, overflows |
| CommandLine.Matches | Src/SketchToAI/MainWindow.xaml.cs:67-68 | a matching argument is at least two characters long and starts with a dash |
| CommandLine.CheckSwitch | Src/SketchToAI/MainWindow.xaml.cs:63-72 | a switch call throws only when its switch is at the head, and never lengthens the argument list |
| CommandLine.CheckSwitches | Src/SketchToAI/MainWindow.xaml.cs:82-86 | the switch calls, in table order and stopping at the first exception, never lengthen the argument list |
| CommandLine.Finish | Src/SketchToAI/MainWindow.xaml.cs:89-99 | an analyzer starts exactly when arguments remain, with the first as its command and the settings kept; otherwise the help runs once more |
| CommandLine.Parse | Src/SketchToAI/MainWindow.xaml.cs:53-100 | an analyzer starts only when at least one argument follows the program name |
| CommandLine.MatchIgnoresCase | Src/SketchToAI/MainWindow.xaml.cs:67-68 | the switch test does not depend on the case of the argument or of the names |
| CommandLine.SpellingsMatch | Src/SketchToAI/MainWindow.xaml.cs:67-68 | "-" + short name and "--" + full name, in any case, match |
| CommandLine.MatchShape | Src/SketchToAI/MainWindow.xaml.cs:67-68 | a matching argument has the length of one spelling and its first name letter after the dashes |
| CommandLine.SwitchesExclusive | Src/SketchToAI/MainWindow.xaml.cs:82-86 | no argument matches two switches of the table |
| CommandLine.CheckSwitchDrops | Src/SketchToAI/MainWindow.xaml.cs:63-72 | one `CheckSwitch` leaves the list alone or removes exactly its first two arguments |
| CommandLine.SwitchesLeaveSuffix | Src/SketchToAI/MainWindow.xaml.cs:82-86 | the switches remove `2n` leading arguments, for some `n` no larger than the number of switches, and keep the rest in order |
| CommandLine.SkipUnmatched | Src/SketchToAI/MainWindow.xaml.cs:65-68 | a switch that finds the list empty or does not match the head changes nothing |
| CommandLine.ApplyAtHead | Src/SketchToAI/MainWindow.xaml.cs:69-70 | a matching switch whose action succeeds has its action applied and then the head and its value removed |
| CommandLine.FinishSplitsCommand | Src/SketchToAI/MainWindow.xaml.cs:91 | when no argument after the command holds a space, splitting the joined arguments at spaces gives them back; a lone command gets empty arguments |
| Text.JoinSplitsSpaced | Src/SketchToAI/MainWindow.xaml.cs:91 | `string.Join(" ", …)` gives the same text for a word holding a space as for the two words around it, wherever it stands |
| CommandLine.Apply | Src/SketchToAI/MainWindow.xaml.cs:82-86 | the help action only counts one more help request; a value action fails exactly when `args[1]` is missing (ArgumentOutOfRange) or `int.Parse` fails, and otherwise leaves the help count alone |
| CommandLine.Consumed | Src/SketchToAI/MainWindow.xaml.cs:57-61 | consuming throws ArgumentOutOfRange exactly when the count exceeds the list; otherwise what is left is the suffix shorter by the count (by nothing for a count below one) |
| CommandLine.JoinLosesBoundaries | Src/SketchToAI/MainWindow.xaml.cs:91 | an argument holding a space, anywhere after the command, reaches the analyzer exactly as the two arguments on either side of it do, and the analyzer's split sees the two |
| CommandLine.HelpAloneCrashes | Src/SketchToAI/MainWindow.xaml.cs:63-82 | a lone help switch runs `Help` and then throws ArgumentOutOfRange, which escapes the parse |
| CommandLine.HelpSwallowsCommand | Src/SketchToAI/MainWindow.xaml.cs:70-99 | a help switch followed by a command removes the command too, so the help runs twice and no analyzer starts |
| CommandLine.HelpSpellings | Src/SketchToAI/MainWindow.xaml.cs:82 | `--help` and `-?` both select the help switch |
| CommandLine.NoArgumentsShowHelp | Src/SketchToAI/MainWindow.xaml.cs:89-99 | an empty command line takes the help path once and starts nothing |
| CommandLine.OutOfOrderSwitchIsLeft | Src/SketchToAI/MainWindow.xaml.cs:82-86 | a value switch followed by a switch earlier in the table, the help switch included (`-cs 10 --help`), applies the first and leaves the second as the analyzer command |
| Window.MainWindow.constructor | Src/SketchToAI/MainWindow.xaml.cs:25-37 | the window starts with the default sizes, no analyzer and no snapshot |
| Window.MainWindow.Help | Src/SketchToAI/MainWindow.xaml.cs:74-80 | `Help` records one more usage-and-close request and changes nothing else |
| Window.MainWindow.Consume | Src/SketchToAI/MainWindow.xaml.cs:57-61 | removes exactly the first `count` arguments and keeps the rest in order; more than the list holds throws ArgumentOutOfRange |
| Window.MainWindow.RunAction | Src/SketchToAI/MainWindow.xaml.cs:74-86 | the switch action sets exactly its property from `args[1]`, or fails as `args[1]` or `int.Parse` throws |
| Window.MainWindow.CheckSwitch | Src/SketchToAI/MainWindow.xaml.cs:63-72 | on a matching head the action runs first and then the arguments are consumed; otherwise nothing changes |
| Window.MainWindow.CheckSwitches | Src/SketchToAI/MainWindow.xaml.cs:82-86 | the switch calls in table order, stopping at the first exception |
| Window.MainWindow.StartAnalyzer | Src/SketchToAI/MainWindow.xaml.cs:89-99 | a non-empty remainder starts a new, running host for its first word with the rest joined by spaces; an empty one shows the help |
| Window.MainWindow.ParseCommandLineArguments | Src/SketchToAI/MainWindow.xaml.cs:53-100 | the whole parse ends in the settings, crash and analyzer the reference parse `CommandLine.Parse` gives |
| QueryText.Encode | Src/SketchToAI/MainWindow.xaml.cs:163 | only the empty snapshot gives the empty query |
| QueryText.Token | Src/SketchToAI/MainWindow.xaml.cs:163 | a pixel's token is a non-empty numeral without spaces whose value is `255 - b` |
| QueryText.TokenPerPixel | Src/SketchToAI/MainWindow.xaml.cs:163 | a query has exactly one space-separated token per pixel and token i is the decimal of `255 - output[i]` |
| QueryText.RoundTrip | Src/SketchToAI/MainWindow.xaml.cs:163 | reading the tokens and subtracting from 255 recovers the pixel bytes |
| QueryText.EncodeInjective | Src/SketchToAI/MainWindow.xaml.cs:163 | different snapshots give different queries |
| Window.MainWindow.Publish | Src/SketchToAI/MainWindow.xaml.cs:142-144 | a new pixel array, distinct from every earlier one, becomes `_currentOutput` |
| Analysis.PublishAllFacts | Src/SketchToAI/MainWindow.xaml.cs:144 | publishing leaves `_analyzedOutput` alone and makes the last new array current |
| Analysis.PublishInvalidates | Src/SketchToAI/MainWindow.xaml.cs:144-170 | a snapshot published during an await is never the one under analysis, so the loop goes round again |
| Analysis.Loop | Src/SketchToAI/MainWindow.xaml.cs:162-176 | the loop sends one query per round, at most one more than the awaits, and never ends as in flight |
| Analysis.Analyze | Src/SketchToAI/MainWindow.xaml.cs:150-180 | a call returns at the guard, changing nothing and sending no query, exactly when an analysis is in flight; it sends at most one more query than the awaits |
| Analysis.LoopContract | Src/SketchToAI/MainWindow.xaml.cs:162-176 | the loop's first query is for the snapshot it started with; it exits only when the snapshot it last queried is still current, and then resets `_analyzedOutput` to null; a throwing query leaves it set; it sends at most one query more than the awaits during which snapshots were published |
| Analysis.AnalyzeContract | Src/SketchToAI/MainWindow.xaml.cs:150-180 | with an analysis in flight `TryAnalyze` returns without querying or changing anything; otherwise the loop contract holds for the snapshot current at the start |
| Analysis.FaultSticks | Src/SketchToAI/MainWindow.xaml.cs:153-164 | after a query throws, no later `TryAnalyze` sends a query, whatever is published |
| Window.MainWindow.PublishEach | Src/SketchToAI/MainWindow.xaml.cs:144 | the snapshots published during an await become current one after the other |
| Window.MainWindow.TryAnalyze | Src/SketchToAI/MainWindow.xaml.cs:150-180 | the method ends in the state, with the outcome and the queries of the reference `Analysis.Analyze` |
| Window.MainWindow.AnalyzeLoop | Src/SketchToAI/MainWindow.xaml.cs:162-176 | entered with one snapshot both current and under analysis, the loop ends in the state, with the outcome and the queries, of the reference `Analysis.Loop` |
| Window.MainWindow.Round | Src/SketchToAI/MainWindow.xaml.cs:164-175 | one await and its reply: a throw ends the loop as faulted; a snapshot still current after the reply clears the in-flight marker and ends it; otherwise the newest snapshot goes under analysis and the rest of the reference loop continues from it |
| UIHelpers.FindChild | Src/SketchToAI/UIHelpers.cs:9-35 | a null root fails with ArgumentNull; otherwise the result is the first hit of the reference search order, and it is null exactly when no qualifying element is reachable through non-`T` elements |
| UIHelpers.Search | Src/SketchToAI/UIHelpers.cs:13-34 | the loop over children in index order, recursing into non-`T` children and stopping at the first hit, returns the first element of `Hits` |
| UIHelpers.HitsQualify | Src/SketchToAI/UIHelpers.cs:17-31 | every hit is a `T`, and with a non-empty name it is a `FrameworkElement` of that name |
| UIHelpers.FoundQualifies | Src/SketchToAI/UIHelpers.cs:25-34 | a non-null result is a `T`, named as asked when the name is not empty |
| UIHelpers.NoHitsFrom | Src/SketchToAI/UIHelpers.cs:15-28 | children without a hit, `T` children that do not qualify and subtrees whose search finds nothing, are passed over |
| UIHelpers.FirstQualifyingChild | Src/SketchToAI/UIHelpers.cs:15-33 | children are examined in index order: a qualifying `T` child is the result when every child before it is a `T` that does not qualify or a subtree without a hit |
| UIHelpers.UnnamedTakesFirstT | Src/SketchToAI/UIHelpers.cs:15-31 | with a null or empty name the first `T` child reached, after any subtrees without a hit, is returned |
| UIHelpers.NotBelowT | Src/SketchToAI/UIHelpers.cs:17-20 | the search never looks below a `T` child: dropping those subtrees gives the same hits in the same order |
| UIHelpers.NoneFromAny | Src/SketchToAI/UIHelpers.cs:15-21 | when nothing is found from a child on, no later child holds a hit |
| UIHelpers.ReachableIsFound | Src/SketchToAI/UIHelpers.cs:13-34 | the result is null only when no qualifying element is reachable through non-`T` elements |
| UIHelpers.HitsReachable | Src/SketchToAI/UIHelpers.cs:13-34 | every hit, and so every non-null result, lies on a path of non-`T` elements from the root |
| Text.SplitJoin | Src/SketchToAI/MainWindow.xaml.cs:91 | splitting at spaces undoes joining space-free words with single spaces |
| Text.DecimalDigits | Src/SketchToAI/MainWindow.xaml.cs:163 | a number's decimal text is a non-empty digit string without spaces whose value is the number |
| Text.LowerIdempotent | Src/SketchToAI/MainWindow.xaml.cs:67-68 | lower-casing twice is lower-casing once |

## Left out

- Process launch and pipe I/O (`ProcessStartInfo`, `Process.Start`,
  `WriteLineAsync`, `ReadLineAsync`) are oracles. Each session gets a
  launch outcome, and each item gets a write outcome, a cancellation flag
  after the read, and a read outcome (a line, end of stream, or an error).
  The process's own behaviour and its standard error are not modelled.
- Task scheduling and timing (`Task.Run`, `Task.WhenAny`,
  `CancellationToken.AsTask`, `Task.Delay`) are reduced to atomic steps.
  Cancellation is a boolean read where the code checks the token. The
  delay is one step that elapses, is cancelled, or is still pending.
- `HostModel.Supervise`, `HostModel.Session`, `HostModel.Serve`: the
  readings of the token are independent oracle values, so the model
  admits a token that is cancelled at one check and not at a later one.
  The host's single `CancellationToken` stays cancelled, so after a
  cancelled check the next `Task.Delay` throws and `Run` ends. Across
  rounds this is restored only under `HostProperties.StickyCancel`, which
  `CancelEndsRestarts` and `CancelStopsRestart` assume. Within a session,
  a cancellation seen after a read does not force the later writes to fail
  or the later waits to be cancelled.
- `Start` on a token that is already cancelled makes `Task.Run` return a
  task that has already completed. The model always starts a running task.
- `HostModel.Supervise`, `ServerHost.CliServerHost.Run`: other callers act
  only while a session's dequeue loop waits on an empty channel (a `Query`
  that finds room, `Dispose`, or cancellation of the wait). The restart
  loop hands the next session exactly the state the delay left, so a
  `Query` or `Dispose` during the delay or between sessions, and a change
  of `AutoRestartDelay` while the loop runs, are not modelled. Calls that
  interleave with an item's write and read are not modelled either.
- `HostModel.Serve`, `ServerHost.CliServerHost.RunOnce`: a query is a Dafny
  string and cannot be null. In the source, `Query(null)` enqueues a null
  query; `query.ToArray()` at line 93 then throws `ArgumentNullException`
  before the per-item `try`, so the exception leaves `RunOnce` and `Run`
  swallows it. The item is already dequeued, so its slot stays pending
  forever. The model does not have this path, and the promise that every
  dequeued slot is settled holds only for non-null queries.
- The `AsyncChannel` class is not part of this model. Only the behaviour
  its three call sites need is modelled: a bounded FIFO with an accepting
  flag. Blocked puts and pulls return "must wait" instead of blocking.
  The constructor is only called with capacity 16.
- `HostModel.Serve`: a pull whose wait is cancelled is assumed to throw
  `OperationCanceledException`, as `PullAsync(CancellationToken)`
  conventionally does. A channel that instead reported "not dequeued"
  would end the session normally, and the statement that the loop ends
  normally exactly when the channel is closed would not hold.
- The `TaskCompletionSource` objects behind the response slots are ids
  into a slot list the host owns. The awaiting caller's side of `Query`
  (the `await tcs.Task`) is not modelled.
- Error messages, `Console.Error` logging in `Run`, `WorkingDirectory`
  and the concrete time span of `AutoRestartDelay` are not modelled. The
  delay is a number of milliseconds.
- `UpdateImage` (rasterisation, resizing, pen geometry, the bitmap shown)
  and `OnClosing` are not modelled. Only the publication of a new output
  array at line 144 is kept, as `Publish`.
- `Help`'s console output and `Dispatcher.Invoke(Close)` are reduced to
  a counter of help requests. The `Dispatcher` text updates in
  `TryAnalyze` are reduced to the `analyzing` flag and the last
  response shown.
- `CommandLine.ParseInt32`: `int.Parse` is reduced to an optional sign and
  ASCII digits. It does not accept surrounding white space or
  culture-specific forms.
- `PenSize` and `EraserSize` are `float`. The model stores them as exact
  reals, so the 1.33 default and large parsed integers are not rounded to
  single precision.
- `Text.Lower` lower-cases ASCII letters only. `ToLowerInvariant` also
  folds other letters.
- `Analysis`: snapshot identity (reference equality of byte arrays) is a
  counter the model hands out. The reply to each query comes from an
  oracle rather than from the host model. A null `_analyzer` (after the
  help path) shows up as a query that throws.
- `UIHelpers`: the WPF types and `VisualTreeHelper` become the `Element`
  datatype. A null child returned by `GetChild` is not modelled.
- `Window.MainWindow.CheckSwitches`: the five `CheckSwitch` calls of lines
  82-86 are written as one loop over the switch table, in the same order.
- `Src/TestAnalyzer/Program.cs` is not part of this model: it is a
  floating-point console loop. `Src/SketchToAI/Errors.cs` only builds
  exception objects; its `AlreadyRunning` and `NotRunning` are the
  `HostError` cases.

=== FILE: Analysis.dfy ===
/** The single-flight coalescing of `MainWindow.TryAnalyze`, as atomic
    steps over the two snapshot references `_currentOutput` and
    `_analyzedOutput`. */
module Analysis {
  import opened Wrappers
  import opened QueryText

  /** A pixel array published by `UpdateImage`; `id` stands for the array's
      identity, since the source compares the references, not the bytes. */
  datatype Snapshot = Snapshot(id: nat, pixels: seq<byte>)

  /** `_currentOutput`, `_analyzedOutput` (null as `None`), the next
      snapshot identity, whether "(analyzing)" is shown, and the text
      shown as the analyzer's response. */
  datatype AnalysisState = AnalysisState(
    current: Option<Snapshot>,
    analyzed: Option<Snapshot>,
    nextId: nat,
    analyzing: bool,
    response: Option<string>)

  /** What the awaited `Query` call yields: the reply line (possibly null)
      or an exception, which faults the `TryAnalyze` task. */
  datatype Reply = Answered(text: Option<string>) | Threw

  /** One await on the analyzer: the snapshots `UpdateImage` publishes
      meanwhile, then the reply. */
  datatype Await = Await(published: seq<seq<byte>>, reply: Reply)

  /** How a `TryAnalyze` call ends: another one is in flight, the loop
      caught up with the current snapshot, the task faulted, or it still
      awaits the reply to its last query. */
  datatype AnalyzeEnd = InFlight | CaughtUp | Faulted | Awaiting

  datatype Outcome = Outcome(state: AnalysisState, end: AnalyzeEnd, queries: seq<string>)

  const Idle: AnalysisState := AnalysisState(None, None, 0, false, None)

  /** Every snapshot reference was handed out before `nextId`. */
  ghost predicate Fresh(s: AnalysisState)
  {
    && (s.current.Some? ==> s.current.value.id < s.nextId)
    && (s.analyzed.Some? ==> s.analyzed.value.id < s.nextId)
  }

  /** `lock (_lock) _currentOutput = outputBytes;` with a new array. */
  function Publish(s: AnalysisState, pixels: seq<byte>): AnalysisState
  {
    s.(current := Some(Snapshot(s.nextId, pixels)), nextId := s.nextId + 1)
  }

  function PublishAll(s: AnalysisState, ps: seq<seq<byte>>): AnalysisState
    decreases |ps|
  {
    if ps == [] then s else PublishAll(Publish(s, ps[0]), ps[1..])
  }

  /** The `while (true)` loop from the query of `output` on: one query per
      round, at most one more than the awaits. */
  function Loop(s: AnalysisState, output: Snapshot, awaits: seq<Await>): (r: Outcome)
    ensures 1 <= |r.queries| <= 1 + |awaits|
    ensures r.end != InFlight
    decreases |awaits|
  {
    var q := Encode(output.pixels);
    if awaits == [] then Outcome(s, Awaiting, [q])
    else
      var s1 := PublishAll(s, awaits[0].published);
      match awaits[0].reply
      case Threw => Outcome(s1, Faulted, [q])
      case Answered(text) =>
        var s2 := s1.(response := text);
        if s2.analyzed == s2.current then Outcome(s2.(analyzed := None, analyzing := false), CaughtUp, [q])
        // a null current snapshot would make the next encoding throw
        else if s2.current == None then Outcome(s2, Faulted, [q])
        else
          var r := Loop(s2.(analyzed := s2.current), s2.current.value, awaits[1..]);
          Outcome(r.state, r.end, [q] + r.queries)
  }

  /** `TryAnalyze`: the in-flight guard, then the loop on the current
      snapshot; with no snapshot published yet, encoding it throws. */
  function Analyze(s: AnalysisState, awaits: seq<Await>): (r: Outcome)
    ensures r.end == InFlight <==> s.analyzed.Some?
    ensures r.end == InFlight ==> r.state == s && r.queries == []
    ensures |r.queries| <= 1 + |awaits|
  {
    if s.analyzed.Some? then Outcome(s, InFlight, [])
    else match s.current
      case None => Outcome(s.(analyzing := true), Faulted, [])
      case Some(o) => Loop(s.(analyzed := Some(o), analyzing := true), o, awaits)
  }

  /** The number of awaits during which at least one snapshot was published. */
  function Busy(awaits: seq<Await>): nat
  {
    if awaits == [] then 0
    else (if awaits[0].published != [] then 1 else 0) + Busy(awaits[1..])
  }

  lemma {:induction false} PublishAllFacts(s: AnalysisState, ps: seq<seq<byte>>)
    requires Fresh(s)
    ensures var t := PublishAll(s, ps);
      && Fresh(t)
      && t.analyzed == s.analyzed && t.analyzing == s.analyzing && t.response == s.response
      && t.nextId == s.nextId + |ps|
      && (ps == [] ==> t.current == s.current)
      && (ps != [] ==> t.current.Some? && t.current.value.id >= s.nextId
                       && t.current.value.pixels == ps[|ps| - 1])
    decreases |ps|
  {
    if ps != [] {
      PublishAllFacts(Publish(s, ps[0]), ps[1..]);
      if |ps| > 1 {
        assert ps[1..][|ps[1..]| - 1] == ps[|ps| - 1];
      }
    }
  }

  /** A snapshot published while a query is outstanding is never the one
      being analysed, so it forces another round. */
  lemma PublishInvalidates(s: AnalysisState, ps: seq<seq<byte>>)
    requires Fresh(s) && ps != []
    ensures PublishAll(s, ps).current != s.analyzed
  {
    PublishAllFacts(s, ps);
  }

  /** The loop issues one query per round, first for `output`; it leaves
      the loop only once the snapshot it last queried is still the current
      one, and then clears `_analyzedOutput`. A reply that throws leaves
      `_analyzedOutput` set. A round after the first needs a snapshot
      published during the previous await, so at most `1 + Busy` queries
      are made. */
  lemma {:induction false} LoopContract(s: AnalysisState, output: Snapshot, awaits: seq<Await>)
    requires Fresh(s) && s.analyzed == Some(output) && s.current == Some(output) && s.analyzing
    ensures var r := Loop(s, output, awaits);
      && Fresh(r.state)
      && r.end != InFlight
      && 1 <= |r.queries| <= 1 + Busy(awaits)
      && r.queries[0] == Encode(output.pixels)
      && (r.end == CaughtUp <==> r.state.analyzed == None)
      && (r.end == CaughtUp ==>
            && r.state.current.Some?
            && r.queries[|r.queries| - 1] == Encode(r.state.current.value.pixels)
            && !r.state.analyzing)
      && (r.end != CaughtUp ==> r.state.analyzing && r.state.current.Some?)
    decreases |awaits|
  {
    if awaits != [] {
      var s1 := PublishAll(s, awaits[0].published);
      PublishAllFacts(s, awaits[0].published);
      match awaits[0].reply
      case Threw =>
      case Answered(text) =>
        var s2 := s1.(response := text);
        if s2.analyzed != s2.current {
          assert awaits[0].published != [];
          var s3 := s2.(analyzed := s2.current);
          LoopContract(s3, s2.current.value, awaits[1..]);
          var r := Loop(s3, s2.current.value, awaits[1..]);
          assert Loop(s, output, awaits).queries == [Encode(output.pixels)] + r.queries;
        }
    }
  }

  /** `TryAnalyze` while another call is in flight changes nothing and
      queries nothing; otherwise the loop contract applies to the snapshot
      current at the start. */
  lemma AnalyzeContract(s: AnalysisState, awaits: seq<Await>)
    requires Fresh(s)
    ensures var r := Analyze(s, awaits);
      && Fresh(r.state)
      && (s.analyzed.Some? <==> r.end == InFlight)
      && (s.analyzed.Some? ==> r == Outcome(s, InFlight, []))
      && (s.analyzed == None && s.current.Some? ==>
            && 1 <= |r.queries| <= 1 + Busy(awaits)
            && r.queries[0] == Encode(s.current.value.pixels)
            && (r.end == CaughtUp <==> r.state.analyzed == None))
  {
    if s.analyzed == None && s.current.Some? {
      LoopContract(s.(analyzed := s.current, analyzing := true), s.current.value, awaits);
    }
  }

  /** A query that throws leaves `_analyzedOutput` set for good: whatever is
      published afterwards, every later `TryAnalyze` returns at the guard
      and no query is ever sent again. */
  lemma FaultSticks(s: AnalysisState, awaits: seq<Await>, later: seq<seq<byte>>, next: seq<Await>)
    requires Fresh(s) && s.analyzed == None && s.current.Some?
    requires Analyze(s, awaits).end == Faulted
    ensures var t := PublishAll(Analyze(s, awaits).state, later);
      Analyze(t, next) == Outcome(t, InFlight, [])
  {
    var r := Analyze(s, awaits);
    LoopContract(s.(analyzed := s.current, analyzing := true), s.current.value, awaits);
    PublishAllFacts(r.state, later);
  }
}

=== FILE: Channel.dfy ===
/** The bounded request channel the host drains: a FIFO of at most `capacity`
    items plus a one-way "accepting" flag. Only what the host's call sites use
    is modelled: putting an item, pulling one, and closing the producer side. */
module Channel {

  /** What a put does: the item is appended, the channel refuses it because it
      was closed, the caller's cancellation ends the wait, or the caller must
      wait for room (the model's atomic step then changes nothing). */
  datatype PutOutcome = Added | Rejected | PutCanceled | MustWaitForRoom

  /** What a pull does: an item is dequeued, the closed and empty channel
      reports that nothing was dequeued, or the consumer must wait. */
  datatype PullOutcome<T> = Pulled(item: T) | NotDequeued | MustWaitForItem

  class AsyncChannel<T> {
    const capacity: nat
    var items: seq<T>
    var accepting: bool

    ghost predicate Valid()
      reads this
    {
      0 < capacity && |items| <= capacity
    }

    constructor (capacity: nat)
      requires 0 < capacity
      ensures Valid() && this.capacity == capacity
      ensures items == [] && accepting
    {
      this.capacity := capacity;
      items := [];
      accepting := true;
    }

    /** `PutAsync(item, token)`: appends at the tail when the channel is open
        and has room; never drops an item silently. */
    method PutAsync(item: T, canceled: bool) returns (r: PutOutcome)
      requires Valid()
      modifies this
      ensures Valid() && accepting == old(accepting)
      ensures !old(accepting) ==> r == Rejected && items == old(items)
      ensures old(accepting) && |old(items)| < capacity ==> r == Added && items == old(items) + [item]
      ensures old(accepting) && |old(items)| == capacity ==>
                r == (if canceled then PutCanceled else MustWaitForRoom) && items == old(items)
    {
      if !accepting {
        r := Rejected;
      } else if |items| < capacity {
        items := items + [item];
        r := Added;
      } else if canceled {
        r := PutCanceled;
      } else {
        r := MustWaitForRoom;
      }
    }

    /** `PullAsync(token)`: takes the head item; on an empty channel reports
        "not dequeued" once the producer side is closed, and waits otherwise. */
    method PullAsync() returns (r: PullOutcome<T>)
      requires Valid()
      modifies this
      ensures Valid() && accepting == old(accepting)
      ensures old(items) != [] ==> r == Pulled(old(items)[0]) && items == old(items)[1..]
      ensures old(items) == [] ==> items == [] && r == (if accepting then MustWaitForItem else NotDequeued)
    {
      if items != [] {
        r := Pulled(items[0]);
        items := items[1..];
      } else if accepting {
        r := MustWaitForItem;
      } else {
        r := NotDequeued;
      }
    }

    /** `CompletePut()`: closes the producer side for good; idempotent. */
    method CompletePut()
      requires Valid()
      modifies this
      ensures Valid() && !accepting && items == old(items)
    {
      accepting := false;
    }
  }
}

=== FILE: CommandLine.dfy ===
/** The command-line handling of `MainWindow.ParseCommandLineArguments`, as
    functions over the argument list: the switch table, the head match, the
    switch actions, the destructive consume and the final split into the
    analyzer command and its arguments. */
module CommandLine {
  import opened Wrappers
  import opened Text

  /** The exceptions the parse can raise: a missing argument (`args[1]`,
      `RemoveAt(0)` on an empty list) and the two failures of `int.Parse`. */
  datatype Fault = ArgumentOutOfRange | FormatError | OverflowError

  /** The window properties the switches set, and how often `Help` ran
      (each run prints the usage and asks the window to close). */
  datatype Settings = Settings(canvasSize: int, outputSize: int, penSize: real, eraserSize: real, helpCount: nat)

  const Defaults: Settings := Settings(28 * 4, 28, 1.33, 3.0, 0)

  datatype Action = ShowHelp | SetCanvasSize | SetOutputSize | SetPenSize | SetEraserSize

  /** One `CheckSwitch` call: the two spellings (either may be null), the
      action and how many leading arguments a match removes. */
  datatype Switch = Switch(shortName: Option<string>, fullName: Option<string>, action: Action, consumeOnApply: int)

  /** The switches in the order they are tried; all use the default count 2. */
  const Switches: seq<Switch> := [
    Switch(Some("?"), Some("help"), ShowHelp, 2),
    Switch(Some("cs"), Some("canvasSize"), SetCanvasSize, 2),
    Switch(Some("os"), Some("outputSize"), SetOutputSize, 2),
    Switch(Some("ps"), Some("penSize"), SetPenSize, 2),
    Switch(Some("es"), Some("EraserSize"), SetEraserSize, 2)
  ]

  const Int32Min: int := -0x8000_0000
  const Int32Max: int := 0x7FFF_FFFF

  /** `int.Parse` reduced to an optional sign and decimal digits; a value
      outside the 32-bit range overflows. A success reads a sign or none
      followed by a non-empty digit string, and its value is that numeral's,
      negated after a minus. */
  function ParseInt32(s: string): (r: Result<int, Fault>)
    ensures r.Ok? ==> Int32Min <= r.value <= Int32Max
    ensures r.Ok? ==> s != [] && (s[0] == '-' || s[0] == '+' || IsDigit(s[0]))
    ensures r.Ok? ==>
      var d := if s[0] == '-' || s[0] == '+' then s[1..] else s;
      d != [] && AllDigits(d) && r.value == (if s[0] == '-' then -(DigitsValue(d) as int) else DigitsValue(d))
  {
    var signed := |s| > 0 && (s[0] == '-' || s[0] == '+');
    var digits := if signed then s[1..] else s;
    match ParseNat(digits)
    case None => Err(FormatError)
    case Some(n) =>
      var v: int := if signed && s[0] == '-' then -(n as int) else n;
      if Int32Min <= v <= Int32Max then Ok(v) else Err(OverflowError)
  }

  /** `name` is present, not empty, and after lower-casing both sides the
      head is `prefix` followed by it. */
  predicate NamedAs(head: string, prefix: string, name: Option<string>)
    ensures NamedAs(head, prefix, name) ==>
      |head| > |prefix| && forall i :: 0 <= i < |prefix| ==> Lower(head)[i] == prefix[i]
  {
    name.Some? && name.value != "" && Lower(head) == prefix + Lower(name.value)
  }

  /** The test of `CheckSwitch`: "-" + short name or "--" + full name. A
      matching head is at least two characters long and starts with a dash. */
  predicate Matches(head: string, sw: Switch)
    ensures Matches(head, sw) ==> |head| >= 2 && head[0] == '-'
  {
    NamedAs(head, "-", sw.shortName) || NamedAs(head, "--", sw.fullName)
  }

  /** The switch action: `Help`, or one property set from `int.Parse(args[1])`.
      Help only counts itself; a value action fails exactly when `args[1]` is
      missing or does not parse, and otherwise leaves the help count alone. */
  function Apply(s: Settings, action: Action, args: seq<string>): (r: Result<Settings, Fault>)
    ensures action == ShowHelp ==> r == Ok(s.(helpCount := s.helpCount + 1))
    ensures action != ShowHelp ==>
      (r.Err? <==> |args| < 2 || ParseInt32(args[1]).Err?)
    ensures action != ShowHelp && |args| < 2 ==> r == Err(ArgumentOutOfRange)
    ensures action != ShowHelp && r.Ok? ==> r.value.helpCount == s.helpCount
  {
    if action == ShowHelp then Ok(s.(helpCount := s.helpCount + 1))
    else if |args| < 2 then Err(ArgumentOutOfRange)
    else match ParseInt32(args[1])
      case Err(f) => Err(f)
      case Ok(n) =>
        Ok(match action
           case SetCanvasSize => s.(canvasSize := n)
           case SetOutputSize => s.(outputSize := n)
           case SetPenSize => s.(penSize := n as real)
           case SetEraserSize => s.(eraserSize := n as real)
           case ShowHelp => s)
  }

  /** `Consume(count)`: the list without its first `count` elements; a count
      larger than the list throws. A count below one removes nothing. What
      is left is a suffix of the list, shorter by exactly the count. */
  function Consumed(args: seq<string>, count: int): (r: Result<seq<string>, Fault>)
    ensures r.Err? <==> count > |args|
    ensures r.Err? ==> r.error == ArgumentOutOfRange
    ensures r.Ok? ==> |r.value| == |args| - (if count <= 0 then 0 else count)
    ensures r.Ok? ==> forall i :: 0 <= i < |r.value| ==> r.value[i] == args[|args| - |r.value| + i]
  {
    if count <= 0 then Ok(args)
    else if count <= |args| then Ok(args[count..])
    else Err(ArgumentOutOfRange)
  }

  /** An exception escaping the parse, with the settings made before it. */
  datatype Crash = Crash(fault: Fault, settings: Settings)

  /** The settings so far and the argument list not yet consumed. */
  datatype Parsed = Parsed(settings: Settings, args: seq<string>)

  /** A switch call throws only when its switch is at the head, and it
      never lengthens the list. */
  function CheckSwitch(p: Parsed, sw: Switch): (r: Result<Parsed, Crash>)
    ensures r.Err? ==> |p.args| >= 1 && Matches(p.args[0], sw)
    ensures r.Ok? ==> |r.value.args| <= |p.args|
  {
    if |p.args| < 1 || !Matches(p.args[0], sw) then Ok(p)
    else match Apply(p.settings, sw.action, p.args)
      case Err(f) => Err(Crash(f, p.settings))
      case Ok(s) =>
        match Consumed(p.args, sw.consumeOnApply)
        case Err(f) => Err(Crash(f, s))
        case Ok(rest) => Ok(Parsed(s, rest))
  }

  /** The `CheckSwitch` calls in order, stopping at the first exception;
      the switches never lengthen the list. */
  function CheckSwitches(p: Parsed, sws: seq<Switch>): (r: Result<Parsed, Crash>)
    ensures r.Ok? ==> |r.value.args| <= |p.args|
    decreases |sws|
  {
    if sws == [] then Ok(p)
    else match CheckSwitch(p, sws[0])
      case Err(c) => Err(c)
      case Ok(q) => CheckSwitches(q, sws[1..])
  }

  /** The analyzer to start: its command and its space-joined arguments. */
  datatype Launch = Launch(command: string, arguments: string)

  datatype Configured = Configured(settings: Settings, analyzer: Option<Launch>)

  /** The `try` block after the switches: `args[0]` throws on an empty list,
      and the `catch` shows the help instead of starting an analyzer. */
  function Finish(p: Parsed): (r: Configured)
    ensures r.analyzer == None <==> p.args == []
    ensures r.analyzer == None ==> r.settings == p.settings.(helpCount := p.settings.helpCount + 1)
    ensures r.analyzer.Some? ==> r.settings == p.settings && r.analyzer.value.command == p.args[0]
  {
    if p.args == [] then Configured(p.settings.(helpCount := p.settings.helpCount + 1), None)
    else Configured(p.settings, Some(Launch(p.args[0], Join(p.args[1..]))))
  }

  /** The whole parse of the process command line (program name first).
      An analyzer starts only when an argument follows the program name. */
  function Parse(s: Settings, commandLine: seq<string>): (r: Result<Configured, Crash>)
    ensures r.Ok? && r.value.analyzer.Some? ==> |commandLine| >= 2
  {
    var args := if commandLine == [] then [] else commandLine[1..];
    match CheckSwitches(Parsed(s, args), Switches)
    case Err(c) => Err(c)
    case Ok(p) => Ok(Finish(p))
  }

  /** The switch test ignores the case of the head and of the names. */
  lemma MatchIgnoresCase(head: string, sw: Switch)
    ensures Matches(Lower(head), sw) == Matches(head, sw)
    ensures sw.shortName.Some? && sw.fullName.Some? ==>
      Matches(head, sw.(shortName := Some(Lower(sw.shortName.value)), fullName := Some(Lower(sw.fullName.value))))
        == Matches(head, sw)
  {
    LowerIdempotent(head);
    if sw.shortName.Some? {
      LowerIdempotent(sw.shortName.value);
      assert Lower(sw.shortName.value) == "" <==> sw.shortName.value == "";
    }
    if sw.fullName.Some? {
      LowerIdempotent(sw.fullName.value);
      assert Lower(sw.fullName.value) == "" <==> sw.fullName.value == "";
    }
  }

  /** "-" + the short name and "--" + the full name, in any case, match. */
  lemma SpellingsMatch(sw: Switch, head: string)
    ensures sw.shortName.Some? && sw.shortName.value != "" && Lower(head) == Lower("-" + sw.shortName.value)
      ==> Matches(head, sw)
    ensures sw.fullName.Some? && sw.fullName.value != "" && Lower(head) == Lower("--" + sw.fullName.value)
      ==> Matches(head, sw)
  {
    if sw.shortName.Some? {
      LowerAppend("-", sw.shortName.value);
    }
    if sw.fullName.Some? {
      LowerAppend("--", sw.fullName.value);
    }
  }

  /** A matching head has the length of one spelling and, lower-cased,
      the first character of that spelling's name after the dashes. */
  lemma MatchShape(h: string, sw: Switch)
    requires sw.shortName.Some? && sw.fullName.Some?
    requires sw.shortName.value != "" && sw.fullName.value != ""
    ensures Matches(h, sw) ==>
      || (|h| == 1 + |sw.shortName.value| && LowerChar(h[1]) == LowerChar(sw.shortName.value[0]))
      || (|h| == 2 + |sw.fullName.value| && LowerChar(h[2]) == LowerChar(sw.fullName.value[0]))
  {
    if NamedAs(h, "-", sw.shortName) {
      assert Lower(h)[1] == Lower(sw.shortName.value)[0];
    } else if NamedAs(h, "--", sw.fullName) {
      assert Lower(h)[2] == Lower(sw.fullName.value)[0];
    }
  }

  /** No argument matches two switches of the table, so a switch whose turn
      has passed is never applied. */
  lemma SwitchesExclusive(head: string, i: nat, j: nat)
    requires i < j < |Switches|
    ensures !(Matches(head, Switches[i]) && Matches(head, Switches[j]))
  {
    MatchShape(head, Switches[i]);
    MatchShape(head, Switches[j]);
  }

  /** One switch leaves the list alone or removes its first two arguments. */
  lemma CheckSwitchDrops(p: Parsed, sw: Switch)
    requires sw.consumeOnApply == 2
    ensures CheckSwitch(p, sw).Ok? ==>
      CheckSwitch(p, sw).value.args == p.args ||
      (|p.args| >= 2 && CheckSwitch(p, sw).value.args == p.args[2..])
  {
  }

  /** Dropping nothing or one pair, then `m` pairs, drops `n` pairs. */
  lemma DropPairs(a: seq<string>, b: seq<string>, c: seq<string>, m: nat) returns (n: nat)
    requires b == a || (|a| >= 2 && b == a[2..])
    requires |b| == |c| + 2 * m && c == b[2 * m..]
    ensures n <= m + 1 && |a| == |c| + 2 * n && c == a[2 * n..]
  {
    if b == a {
      n := m;
    } else {
      n := m + 1;
      assert b[2 * m..] == a[2 * n..];
    }
  }

  /** The switches remove an even number of leading arguments, two per
      applied switch (`n` of them), and keep the rest in order. */
  lemma {:induction false} SwitchesLeaveSuffix(p: Parsed, sws: seq<Switch>) returns (n: nat)
    requires forall sw :: sw in sws ==> sw.consumeOnApply == 2
    ensures n <= |sws|
    ensures CheckSwitches(p, sws).Ok? ==>
      var q := CheckSwitches(p, sws).value;
      && |p.args| == |q.args| + 2 * n
      && q.args == p.args[2 * n..]
    decreases |sws|
  {
    n := 0;
    if sws == [] {
      assert p.args[0..] == p.args;
    } else {
      CheckSwitchDrops(p, sws[0]);
      var c := CheckSwitch(p, sws[0]);
      if c.Ok? {
        assert CheckSwitches(p, sws) == CheckSwitches(c.value, sws[1..]);
        var m := SwitchesLeaveSuffix(c.value, sws[1..]);
        var r := CheckSwitches(c.value, sws[1..]);
        if r.Ok? {
          n := DropPairs(p.args, c.value.args, r.value.args, m);
        }
      }
    }
  }

  /** After the switches, the arguments that follow the command are joined
      with spaces; when none of them holds a space, splitting the joined text
      at spaces gives them back, and a lone command gets empty arguments. */
  lemma FinishSplitsCommand(p: Parsed)
    requires p.args != []
    requires forall k :: 1 <= k < |p.args| ==> NoSpace(p.args[k])
    ensures |p.args| >= 2 ==> Split(Finish(p).analyzer.value.arguments) == p.args[1..]
    ensures |p.args| == 1 ==> Finish(p).analyzer.value.arguments == ""
  {
    if |p.args| >= 2 {
      SplitJoin(p.args[1..]);
    }
  }

  /** The join loses the boundaries between arguments: an argument holding
      a space, anywhere after the command, reaches the analyzer exactly as
      the two arguments on either side of that space do; when no argument
      holds another space, the analyzer's split sees the two. */
  lemma JoinLosesBoundaries(p: Parsed, a: string, b: string, post: seq<string>)
    requires p.args != []
    ensures Finish(p.(args := p.args + [a + " " + b] + post)) == Finish(p.(args := p.args + [a, b] + post))
    ensures && (forall k :: 1 <= k < |p.args| ==> NoSpace(p.args[k]))
            && NoSpace(a) && NoSpace(b) && (forall k :: 0 <= k < |post| ==> NoSpace(post[k]))
        ==> Split(Finish(p.(args := p.args + [a + " " + b] + post)).analyzer.value.arguments)
            == p.args[1..] + [a, b] + post
  {
    var joined := p.args + [a + " " + b] + post;
    var split := p.args + [a, b] + post;
    assert joined[1..] == p.args[1..] + [a + " " + b] + post;
    assert split[1..] == p.args[1..] + [a, b] + post;
    JoinSplitsSpaced(p.args[1..], a, b, post);
    if && (forall k :: 1 <= k < |p.args| ==> NoSpace(p.args[k]))
       && NoSpace(a) && NoSpace(b) && (forall k :: 0 <= k < |post| ==> NoSpace(post[k])) {
      forall k | 1 <= k < |split|
        ensures NoSpace(split[k])
      {
        if k >= |p.args| + 2 { assert split[k] == post[k - |p.args| - 2]; }
      }
      FinishSplitsCommand(p.(args := split));
    }
  }

  /** `Int32.Parse` reads back the decimal text of any value in range and
      reports an overflow for the text of any value beyond it, on either side. */
  lemma ParseInt32Decimal(n: nat)
    ensures n <= Int32Max ==> ParseInt32(Decimal(n)) == Ok(n)
    ensures n > Int32Max ==> ParseInt32(Decimal(n)) == Err(OverflowError)
    ensures n <= -Int32Min ==> ParseInt32("-" + Decimal(n)) == Ok(-(n as int))
    ensures n > -Int32Min ==> ParseInt32("-" + Decimal(n)) == Err(OverflowError)
  {
    var d := Decimal(n);
    ParseDecimal(n);
    DecimalDigits(n);
    assert IsDigit(d[0]) && d[0] != '-' && d[0] != '+';
    var m := "-" + d;
    assert m[0] == '-' && m[1..] == d;
  }

  /** Switches that do not match the head (or find the list empty) are
      passed over without effect. */
  lemma {:induction false} SkipUnmatched(p: Parsed, k: nat, m: nat)
    requires k <= m <= |Switches|
    requires forall n :: k <= n < m ==> |p.args| < 1 || !Matches(p.args[0], Switches[n])
    ensures CheckSwitches(p, Switches[k..]) == CheckSwitches(p, Switches[m..])
    decreases m - k
  {
    if k < m {
      assert Switches[k..][0] == Switches[k];
      assert Switches[k..][1..] == Switches[k + 1..];
      SkipUnmatched(p, k + 1, m);
    }
  }

  /** A matching switch whose action succeeds removes the head and the
      argument after it. */
  lemma ApplyAtHead(p: Parsed, sw: Switch)
    requires |p.args| >= 2 && Matches(p.args[0], sw) && sw.consumeOnApply == 2
    requires Apply(p.settings, sw.action, p.args).Ok?
    ensures CheckSwitch(p, sw) == Ok(Parsed(Apply(p.settings, sw.action, p.args).value, p.args[2..]))
  {
  }

  /** The help switch uses the default count 2 as well: given on its own it
      runs `Help` and then removing two arguments from a one-element list
      throws, and nothing catches it. */
  lemma HelpAloneCrashes(s: Settings, program: string, h: string)
    requires Matches(h, Switches[0])
    ensures Parse(s, [program, h]) == Err(Crash(ArgumentOutOfRange, s.(helpCount := s.helpCount + 1)))
  {
    assert [program, h][1..] == [h];
    assert Switches[0..] == Switches;
  }

  /** Followed by a command, the help switch removes the command with it,
      so the help path runs a second time and no analyzer starts. */
  lemma HelpSwallowsCommand(s: Settings, program: string, h: string, command: string)
    requires Matches(h, Switches[0])
    ensures Parse(s, [program, h, command]) == Ok(Configured(s.(helpCount := s.helpCount + 2), None))
  {
    var p0 := Parsed(s, [h, command]);
    var p1 := Parsed(s.(helpCount := s.helpCount + 1), []);
    assert [program, h, command][1..] == p0.args;
    assert p0.args[2..] == [];
    assert CheckSwitch(p0, Switches[0]) == Ok(p1);
    assert Switches[0..] == Switches;
    assert Switches[0..][1..] == Switches[1..];
    SkipUnmatched(p1, 1, |Switches|);
  }

  /** Both spellings of the help switch match. */
  lemma HelpSpellings()
    ensures Matches("--help", Switches[0]) && Matches("-?", Switches[0])
  {
    assert Lower("--help") == "--help" && Lower("help") == "help";
    assert Lower("-?") == "-?" && Lower("?") == "?";
  }

  /** With no arguments at all the help path is taken once and no analyzer starts. */
  lemma NoArgumentsShowHelp(s: Settings, commandLine: seq<string>)
    requires |commandLine| <= 1
    ensures Parse(s, commandLine) == Ok(Configured(s.(helpCount := s.helpCount + 1), None))
  {
    var p := Parsed(s, []);
    assert (if commandLine == [] then [] else commandLine[1..]) == p.args;
    assert Switches[0..] == Switches;
    SkipUnmatched(p, 0, |Switches|);
    assert CheckSwitches(p, Switches) == Ok(p);
    assert Finish(p) == Configured(s.(helpCount := s.helpCount + 1), None);
  }

  /** Each switch is looked for once, at the head, in table order: a value
      switch `h1 v` followed by a switch `h2` that comes earlier in the
      table, the help switch included, applies the first and leaves `h2` as
      the analyzer command. */
  lemma OutOfOrderSwitchIsLeft(s: Settings, program: string, h1: string, v: string, h2: string,
                               rest: seq<string>, i: nat, j: nat)
    requires j < i < |Switches|
    requires Matches(h1, Switches[i]) && Matches(h2, Switches[j])
    requires ParseInt32(v).Ok?
    ensures Apply(s, Switches[i].action, [h1, v]).Ok?
    ensures Parse(s, [program, h1, v, h2] + rest)
         == Ok(Configured(Apply(s, Switches[i].action, [h1, v]).value, Some(Launch(h2, Join(rest)))))
  {
    var p0 := Parsed(s, [h1, v, h2] + rest);
    assert Apply(s, Switches[i].action, [h1, v]) == Apply(s, Switches[i].action, p0.args);
    var p1 := Parsed(Apply(s, Switches[i].action, [h1, v]).value, [h2] + rest);
    assert ([program, h1, v, h2] + rest)[1..] == p0.args;
    forall n | 0 <= n < i
      ensures !Matches(h1, Switches[n])
    {
      SwitchesExclusive(h1, n, i);
    }
    forall n | i < n < |Switches|
      ensures !Matches(h2, Switches[n])
    {
      SwitchesExclusive(h2, j, n);
    }
    calc {
      CheckSwitches(p0, Switches);
      { assert Switches[0..] == Switches; }
      CheckSwitches(p0, Switches[0..]);
      { SkipUnmatched(p0, 0, i); }
      CheckSwitches(p0, Switches[i..]);
      { assert p0.args[2..] == p1.args;
        ApplyAtHead(p0, Switches[i]);
        assert Switches[i..][0] == Switches[i] && Switches[i..][1..] == Switches[i + 1..]; }
      CheckSwitches(p1, Switches[i + 1..]);
      { SkipUnmatched(p1, i + 1, |Switches|); }
      CheckSwitches(p1, Switches[|Switches|..]);
      Ok(p1);
    }
    assert p1.args[0] == h2 && p1.args[1..] == rest;
  }
}

=== FILE: HostModel.dfy ===
/** The query host as a state machine over values. The subprocess, the shared
    cancellation token and the producers that run beside the consumer are
    oracles: each session receives, per dequeued item, what writing and reading
    that item's line did, and, per point where the consumer waits, what the
    outside world did meanwhile. */
module HostModel {
  import opened Wrappers

  /** The bound of the request channel. */
  const Capacity: nat := 16
  /** `AutoRestartDelay`'s initial value, one second, in milliseconds. */
  const DefaultRestartDelay: nat := 1000

  /** `_hostTask`: absent, not yet completed, or completed. */
  datatype TaskPhase = NoTask | Running | Completed

  /** Errors surfaced synchronously to the callers of `Start` and `Query`. */
  datatype HostError = AlreadyRunning | NotRunning | EnqueueCompleted | PutCanceled

  /** The exceptions that can reach a response slot or end a session. */
  datatype Fault =
    | TaskCanceledError
    | OperationCanceledError
    | AggregateError(inner: Fault)
    | IoError(message: string)
    | LaunchError(message: string)

  /** A response slot: a single-assignment cell. `Result(None)` is a `null` line. */
  datatype SlotState = Pending | Result(line: Option<string>) | Canceled | Faulted(error: Fault)

  /** A queued item: the query text and the id of the caller's slot. */
  datatype Entry = Entry(query: string, slot: nat)

  /** A dequeued item with what its slot was set to. */
  datatype Served = Served(entry: Entry, outcome: SlotState)

  /** What the session did on the subprocess's pipes: a line it tried to
      write to the input (recorded whether or not the write went through), a
      line read from the output. */
  datatype PipeOp = WriteAttempt(line: string) | ReadLine

  /** The host's observable state; `served`, `pipe` and `restartLog` are histories. */
  datatype HostState = HostState(
    task: TaskPhase,
    restarting: bool,
    restartDelay: nat,
    items: seq<Entry>,
    accepting: bool,
    slots: seq<SlotState>,
    served: seq<Served>,
    pipe: seq<PipeOp>,
    restartLog: seq<bool>)

  /** What `Query` does before the caller awaits the slot: the pair was
      enqueued with this slot id, the put must wait for room, or it failed. */
  datatype QueryOutcome = Enqueued(slot: nat) | MustWait | Failed(error: HostError)

  /** The result of a step: the new state and what the step reports. */
  datatype Step<+O> = Step(state: HostState, out: O)

  // ---------------------------------------------------------------- oracles

  datatype WriteOutcome = Written | WriteFailed(fault: Fault)
  /** `EndOfStream` is `ReadLineAsync` returning `null` after the process closed its output. */
  datatype ReadOutcome = Line(text: string) | EndOfStream | ReadFailed(fault: Fault)

  /** One item's round trip: how the write ended, whether the token was
      cancelled when the read/cancellation race was over, and what the read gave. */
  datatype Exchange = Exchange(write: WriteOutcome, canceledAfterRead: bool, read: ReadOutcome)

  /** How `process.Start()` ended. */
  datatype Launch = Launched | NotStarted | LaunchThrew(message: string)

  /** What happened while the consumer waited on an empty, open channel: a
      producer's put landed, the channel was closed, or the token was cancelled. */
  datatype WaitEvent = Arrive(query: string) | Close | CancelWait

  datatype SessionEnv = SessionEnv(
    canceledAtStart: bool,
    launch: Launch,
    exchange: nat -> Exchange,
    waits: seq<WaitEvent>)

  /** How a session ended: an exception escaped it, the process did not start,
      the dequeue reported no item, or the consumer is still waiting (the
      oracle's waits ran out). */
  datatype SessionEnd = Aborted(fault: Fault) | NotLaunched | Drained | Suspended

  /** How the restart delay went: it elapsed, the token cancelled it (the
      `TaskCanceledException` is not caught in `Run`), or the host is still in it. */
  datatype DelayEnd = Elapsed | CanceledDuringDelay | StillDelaying

  /** One turn of the restart loop: a session, then the delay. */
  datatype Round = Round(session: SessionEnv, delay: DelayEnd)

  /** How the restart loop ended: it exited because the delay is zero, the
      cancelled delay threw out of it, it is still inside a waiting session or
      inside the delay, or the oracle's rounds ran out while it would go on. */
  datatype RunEnd = Finished | DelayCanceled | InSession | InDelay | OutOfRounds

  // ------------------------------------------------------------- operations

  function Initial(): HostState
  {
    HostState(NoTask, false, DefaultRestartDelay, [], true, [], [], [], [])
  }

  /** A put that found room: the entry with a fresh pending slot goes to the tail. */
  function Enqueue(s: HostState, query: string): HostState
  {
    s.(items := s.items + [Entry(query, |s.slots|)], slots := s.slots + [Pending])
  }

  /** The per-item `catch`: only a `TaskCanceledException` cancels the slot. The
      write's exception arrives as is; `readLineTask.Result` wraps a read's
      exception in an `AggregateException`; line 100 throws an
      `OperationCanceledException`, which is not a `TaskCanceledException`.
      The slot is always settled, and a `TaskCanceledException` never
      faults it. */
  function Resolution(e: Exchange): (r: SlotState)
    ensures r != Pending
    ensures r.Faulted? ==> r.error != TaskCanceledError
  {
    match e.write
    case WriteFailed(f) => if f == TaskCanceledError then Canceled else Faulted(f)
    case Written =>
      if e.canceledAfterRead then Faulted(OperationCanceledError)
      else match e.read
        case Line(text) => Result(Some(text))
        case EndOfStream => Result(None)
        case ReadFailed(f) => Faulted(AggregateError(f))
  }

  /** One line written, then one line read when the write succeeded. */
  function PipeOps(query: string, e: Exchange): seq<PipeOp>
  {
    [WriteAttempt(query)] + (if e.write.Written? then [ReadLine] else [])
  }

  /** Services the head item: dequeue, one round trip, one slot write. */
  function Dequeue(s: HostState, e: Exchange): HostState
    requires s.items != []
  {
    var entry := s.items[0];
    var outcome := Resolution(e);
    s.(items := s.items[1..],
       slots := if entry.slot < |s.slots| then s.slots[entry.slot := outcome] else s.slots,
       served := s.served + [Served(entry, outcome)],
       pipe := s.pipe + PipeOps(entry.query, e))
  }

  /** The `while (true)` dequeue loop of a session; `k` counts the items
      dequeued so far. It ends only when the pull reports no item, while it
      waits, or when the wait is cancelled, and it never touches the task
      or the restart state. */
  function Serve(s: HostState, exchange: nat -> Exchange, k: nat, waits: seq<WaitEvent>): (r: Step<SessionEnd>)
    ensures r.out == Drained || r.out == Suspended || r.out == Aborted(OperationCanceledError)
    ensures r.state.task == s.task && r.state.restarting == s.restarting
    ensures r.state.restartDelay == s.restartDelay && r.state.restartLog == s.restartLog
    decreases |waits|, |s.items|
  {
    if s.items != [] then Serve(Dequeue(s, exchange(k)), exchange, k + 1, waits)
    else if !s.accepting then Step(s, Drained)
    else if waits == [] then Step(s, Suspended)
    else match waits[0]
      case Arrive(q) => Serve(Enqueue(s, q), exchange, k, waits[1..])
      case Close => Serve(s.(accepting := false), exchange, k, waits[1..])
      case CancelWait => Step(s, Aborted(OperationCanceledError))
  }

  /** `RunOnce`: the token check, the launch, then the dequeue loop. Only
      the token check and the launch throw out of it: a failed write or read
      is caught per item. */
  function Session(s: HostState, env: SessionEnv): (r: Step<SessionEnd>)
    ensures r.out.Aborted? ==> r.out.fault == OperationCanceledError || r.out.fault.LaunchError?
    ensures r.state.restartDelay == s.restartDelay && r.state.restartLog == s.restartLog
  {
    if env.canceledAtStart then Step(s, Aborted(OperationCanceledError))
    else match env.launch
      case LaunchThrew(m) => Step(s, Aborted(LaunchError(m)))
      case NotStarted => Step(s, NotLaunched)
      case Launched => Serve(s, env.exchange, 0, env.waits)
  }

  /** Entering the restart delay sets `IsRestarting`. */
  function BeginDelay(s: HostState): HostState
  {
    s.(restarting := true, restartLog := s.restartLog + [true])
  }

  /** Leaving the delay, normally or by cancellation, clears it (the `finally`). */
  function EndDelay(s: HostState): HostState
  {
    s.(restarting := false, restartLog := s.restartLog + [false])
  }

  /** `Run`: sessions, each followed by the delay, while the delay is not zero.
      An exception escaping a session is swallowed; one escaping the delay
      ends `Run`. The delay is never changed, and the loop exits normally
      only when it is zero. */
  function Supervise(s: HostState, rounds: seq<Round>): (r: Step<RunEnd>)
    ensures r.state.restartDelay == s.restartDelay
    ensures r.out == Finished ==> r.state.restartDelay == 0
    ensures r.out == InDelay ==> r.state.restarting
    ensures r.out == Finished || r.out == DelayCanceled ==> !r.state.restarting && r.state.task == Completed
    decreases |rounds|
  {
    if rounds == [] then Step(s, OutOfRounds)
    else
      var r := Session(s, rounds[0].session);
      if r.out.Suspended? then Step(r.state, InSession)
      else
        var d := BeginDelay(r.state);
        match rounds[0].delay
        case StillDelaying => Step(d, InDelay)
        case CanceledDuringDelay => Step(EndDelay(d).(task := Completed), DelayCanceled)
        case Elapsed =>
          if EndDelay(d).restartDelay == 0 then Step(EndDelay(d).(task := Completed), Finished)
          else Supervise(EndDelay(d), rounds[1..])
  }

  // -------------------------------------------------------------- invariant

  /** The lines the sessions tried to write to the subprocesses, in order. */
  function WrittenLines(pipe: seq<PipeOp>): seq<string>
  {
    if pipe == [] then []
    else WrittenLines(pipe[..|pipe| - 1]) + (if pipe[|pipe| - 1].WriteAttempt? then [pipe[|pipe| - 1].line] else [])
  }

  /** The queries of the served items, in order. */
  function Queries(served: seq<Served>): seq<string>
  {
    if served == [] then [] else Queries(served[..|served| - 1]) + [served[|served| - 1].entry.query]
  }

  /** Single in flight: every read directly follows a write. */
  ghost predicate Framed(pipe: seq<PipeOp>)
  {
    forall i :: 0 <= i < |pipe| && pipe[i].ReadLine? ==> 0 < i && pipe[i - 1].WriteAttempt?
  }

  /** The restart flag's history: set, cleared, set, cleared, ... */
  ghost predicate Alternating(log: seq<bool>)
  {
    forall i :: 0 <= i < |log| ==> log[i] == (i % 2 == 0)
  }

  /** Every queued item holds a distinct pending slot. */
  ghost predicate QueueInv(s: HostState)
  {
    && |s.items| <= Capacity
    && (forall i :: 0 <= i < |s.items| ==> s.items[i].slot < |s.slots| && s.slots[s.items[i].slot] == Pending)
    && (forall i, j :: 0 <= i < j < |s.items| ==> s.items[i].slot != s.items[j].slot)
  }

  /** Every served item holds a distinct slot, settled to the outcome recorded for it. */
  ghost predicate ServedInv(s: HostState)
  {
    && (forall i :: 0 <= i < |s.served| ==>
          s.served[i].entry.slot < |s.slots| && s.served[i].outcome != Pending
          && s.slots[s.served[i].entry.slot] == s.served[i].outcome)
    && (forall i, j :: 0 <= i < j < |s.served| ==> s.served[i].entry.slot != s.served[j].entry.slot)
  }

  /** Every served item's slot holds the outcome recorded for it. */
  ghost predicate Settled(s: HostState)
  {
    forall i :: 0 <= i < |s.served| ==>
      s.served[i].entry.slot < |s.slots| && s.slots[s.served[i].entry.slot] == s.served[i].outcome
  }

  /** Every slot ever handed out is either queued and pending, or served and
      settled to the outcome recorded for it; no slot is queued or served twice;
      a write of exactly the served queries was attempted, in order, with one
      read after each successful write; `IsRestarting` is the last value its history recorded. */
  ghost predicate Inv(s: HostState)
  {
    && |s.served| + |s.items| == |s.slots|
    && QueueInv(s)
    && ServedInv(s)
    && Framed(s.pipe)
    && WrittenLines(s.pipe) == Queries(s.served)
    && Alternating(s.restartLog)
    && s.restarting == (|s.restartLog| % 2 == 1)
  }
}

=== FILE: HostProperties.dfy ===
/** What the host model promises: the invariant is kept by every step, each
    dequeued item gets one write, one read and one slot write, in dequeue
    order, and the restart loop stops only as the code says it does. */
module HostProperties {
  import opened HostModel

  lemma InitialInv()
    ensures Inv(Initial())
  {
  }

  /** The per-item `catch` settles the slot: never back to pending; cancelled
      exactly for a `TaskCanceledException` from the write; a line exactly when
      the write succeeded, the token was not cancelled and the read gave one. */
  lemma ResolutionCases(e: Exchange)
    ensures Resolution(e) != Pending
    ensures Resolution(e) == Canceled <==> e.write == WriteFailed(TaskCanceledError)
    ensures Resolution(e).Result? <==> e.write.Written? && !e.canceledAfterRead && !e.read.ReadFailed?
    ensures e.write.Written? && e.canceledAfterRead ==> Resolution(e) == Faulted(OperationCanceledError)
  {
  }

  /** Servicing an item attempts exactly one write, of its query line, and
      then reads at most one line, only after a write that succeeded: the
      attempted lines grow by the query, and every read still directly
      follows a write. */
  lemma WrittenOps(pipe: seq<PipeOp>, query: string, e: Exchange)
    ensures WrittenLines(pipe + PipeOps(query, e)) == WrittenLines(pipe) + [query]
    ensures |PipeOps(query, e)| <= 2
    ensures forall i :: 1 <= i < |PipeOps(query, e)| ==> PipeOps(query, e)[i] == ReadLine
    ensures ReadLine in PipeOps(query, e) <==> e.write.Written?
    ensures Framed(pipe) ==> Framed(pipe + PipeOps(query, e))
  {
    AppendWritten(pipe, query, e);
    if Framed(pipe) {
      AppendFramed(pipe, query, e);
    }
  }

  lemma AppendFramed(pipe: seq<PipeOp>, query: string, e: Exchange)
    requires Framed(pipe)
    ensures Framed(pipe + PipeOps(query, e))
  {
    var t := pipe + PipeOps(query, e);
    assert t[|pipe|] == WriteAttempt(query);
    forall i | 0 <= i < |t| && t[i].ReadLine?
      ensures 0 < i && t[i - 1].WriteAttempt?
    {
      if i < |pipe| {
        assert t[i] == pipe[i] && t[i - 1] == pipe[i - 1];
      }
    }
  }

  lemma AppendWritten(pipe: seq<PipeOp>, query: string, e: Exchange)
    ensures WrittenLines(pipe + PipeOps(query, e)) == WrittenLines(pipe) + [query]
  {
    var p1 := pipe + [WriteAttempt(query)];
    assert p1[..|p1| - 1] == pipe;
    if e.write.Written? {
      var p2 := p1 + [ReadLine];
      assert p2[..|p2| - 1] == p1;
      assert pipe + PipeOps(query, e) == p2;
    } else {
      assert pipe + PipeOps(query, e) == p1;
    }
  }

  /** A put that finds room keeps the invariant, and the new slot is pending and fresh. */
  lemma EnqueueKeepsInv(s: HostState, query: string)
    requires Inv(s) && |s.items| < Capacity
    ensures Inv(Enqueue(s, query))
    ensures forall x :: 0 <= x < |s.slots| ==> Enqueue(s, query).slots[x] == s.slots[x]
  {
    var t := Enqueue(s, query);
    forall i | 0 <= i < |t.items|
      ensures t.items[i].slot < |t.slots| && t.slots[t.items[i].slot] == Pending
    {
      if i < |s.items| { assert t.items[i] == s.items[i]; }
    }
    forall i, j | 0 <= i < j < |t.items|
      ensures t.items[i].slot != t.items[j].slot
    {
      if j == |s.items| { assert t.items[i] == s.items[i]; }
    }
  }

  /** Servicing the head item keeps the invariant; it settles that item's
      pending slot and no other slot. */
  lemma DequeueKeepsInv(s: HostState, e: Exchange)
    requires Inv(s) && s.items != []
    ensures Inv(Dequeue(s, e))
    ensures Dequeue(s, e).slots[s.items[0].slot] == Resolution(e)
    ensures forall x :: 0 <= x < |s.slots| && x != s.items[0].slot ==> Dequeue(s, e).slots[x] == s.slots[x]
    ensures |Dequeue(s, e).slots| == |s.slots|
  {
    var t := Dequeue(s, e);
    var x := s.items[0].slot;
    ResolutionCases(e);
    forall i | 0 <= i < |t.items|
      ensures t.items[i].slot < |t.slots| && t.slots[t.items[i].slot] == Pending
    {
      assert t.items[i] == s.items[i + 1];
    }
    forall i | 0 <= i < |t.served|
      ensures t.served[i].entry.slot < |t.slots| && t.served[i].outcome != Pending
      ensures t.slots[t.served[i].entry.slot] == t.served[i].outcome
    {
      if i < |s.served| {
        assert t.served[i] == s.served[i];
        assert s.slots[s.served[i].entry.slot] != Pending;
      }
    }
    forall i, j | 0 <= i < j < |t.served|
      ensures t.served[i].entry.slot != t.served[j].entry.slot
    {
      if j == |s.served| {
        assert s.slots[s.served[i].entry.slot] != Pending;
      }
    }
    WrittenOps(s.pipe, s.items[0].query, e);
    assert t.served[..|t.served| - 1] == s.served;
    forall i | 0 <= i < |t.pipe| && t.pipe[i].ReadLine?
      ensures 0 < i && t.pipe[i - 1].WriteAttempt?
    {
      if i < |s.pipe| { assert t.pipe[i] == s.pipe[i] && t.pipe[i - 1] == s.pipe[i - 1]; }
    }
  }

  /** The dequeue loop ends with an empty queue; it ends normally only when
      the channel is closed, and otherwise only by waiting or by cancellation
      while waiting; the task and the restart settings are left alone. */
  lemma {:induction false} ServeEnds(s: HostState, exchange: nat -> Exchange, k: nat, waits: seq<WaitEvent>)
    ensures var r := Serve(s, exchange, k, waits);
      && r.state.items == []
      && (r.out.Drained? || r.out.Suspended? || r.out == Aborted(OperationCanceledError))
      && (r.out.Drained? <==> !r.state.accepting)
      && r.state.task == s.task && r.state.restarting == s.restarting
      && r.state.restartDelay == s.restartDelay && r.state.restartLog == s.restartLog
    decreases |waits|, |s.items|
  {
    if s.items != [] {
      ServeEnds(Dequeue(s, exchange(k)), exchange, k + 1, waits);
    } else if s.accepting && waits != [] {
      match waits[0]
      case Arrive(q) => ServeEnds(Enqueue(s, q), exchange, k, waits[1..]);
      case Close => ServeEnds(s.(accepting := false), exchange, k, waits[1..]);
      case CancelWait =>
    }
  }

  /** The dequeue loop only appends to the served history. */
  lemma {:induction false} ServePrefix(s: HostState, exchange: nat -> Exchange, k: nat, waits: seq<WaitEvent>)
    ensures var r := Serve(s, exchange, k, waits);
      |r.state.served| >= |s.served| && r.state.served[..|s.served|] == s.served
    decreases |waits|, |s.items|
  {
    var r := Serve(s, exchange, k, waits);
    if s.items != [] {
      var s1 := Dequeue(s, exchange(k));
      ServePrefix(s1, exchange, k + 1, waits);
      assert r.state.served[..|s.served|] == r.state.served[..|s1.served|][..|s.served|];
    } else if s.accepting && waits != [] {
      match waits[0]
      case Arrive(q) => ServePrefix(Enqueue(s, q), exchange, k, waits[1..]);
      case Close => ServePrefix(s.(accepting := false), exchange, k, waits[1..]);
      case CancelWait =>
    }
  }

  /** The k-th item the dequeue loop serves gets the k-th round trip's outcome. */
  lemma {:induction false} ServeOutcomes(s: HostState, exchange: nat -> Exchange, k: nat, waits: seq<WaitEvent>)
    ensures var r := Serve(s, exchange, k, waits);
      && |r.state.served| >= |s.served|
      && (forall j :: |s.served| <= j < |r.state.served| ==>
            r.state.served[j].outcome == Resolution(exchange(k + j - |s.served|)))
    decreases |waits|, |s.items|
  {
    var r := Serve(s, exchange, k, waits);
    ServePrefix(s, exchange, k, waits);
    if s.items != [] {
      var s1 := Dequeue(s, exchange(k));
      ServeOutcomes(s1, exchange, k + 1, waits);
      ServePrefix(s1, exchange, k + 1, waits);
      forall j | |s.served| <= j < |r.state.served|
        ensures r.state.served[j].outcome == Resolution(exchange(k + j - |s.served|))
      {
        if j == |s.served| {
          assert r.state.served[j] == r.state.served[..|s1.served|][j] == s1.served[j];
        } else {
          assert k + 1 + j - |s1.served| == k + j - |s.served|;
        }
      }
    } else if s.accepting && waits != [] {
      match waits[0]
      case Arrive(q) => ServeOutcomes(Enqueue(s, q), exchange, k, waits[1..]);
      case Close => ServeOutcomes(s.(accepting := false), exchange, k, waits[1..]);
      case CancelWait =>
    }
  }

  /** The dequeue loop dequeues every queued item, in queue order (FIFO). */
  lemma {:induction false} ServeOrder(s: HostState, exchange: nat -> Exchange, k: nat, waits: seq<WaitEvent>)
    ensures var r := Serve(s, exchange, k, waits);
      && |r.state.served| >= |s.served| + |s.items|
      && (forall j :: 0 <= j < |s.items| ==> r.state.served[|s.served| + j].entry == s.items[j])
    decreases |waits|, |s.items|
  {
    var r := Serve(s, exchange, k, waits);
    ServePrefix(s, exchange, k, waits);
    if s.items != [] {
      var s1 := Dequeue(s, exchange(k));
      ServeOrder(s1, exchange, k + 1, waits);
      ServePrefix(s1, exchange, k + 1, waits);
      assert r.state.served[..|s1.served|] == s1.served;
      assert r.state.served[|s.served|] == s1.served[|s.served|];
      forall j | 0 <= j < |s.items|
        ensures r.state.served[|s.served| + j].entry == s.items[j]
      {
        if j > 0 {
          assert s1.items[j - 1] == s.items[j];
        }
      }
    }
  }

  /** The dequeue loop keeps the invariant and never writes a settled slot again. */
  lemma {:induction false} ServeKeepsInv(s: HostState, exchange: nat -> Exchange, k: nat, waits: seq<WaitEvent>)
    requires Inv(s)
    ensures var r := Serve(s, exchange, k, waits);
      && Inv(r.state)
      && |r.state.slots| >= |s.slots|
      && (forall x :: 0 <= x < |s.slots| && s.slots[x] != Pending ==> r.state.slots[x] == s.slots[x])
    decreases |waits|, |s.items|
  {
    var r := Serve(s, exchange, k, waits);
    if s.items != [] {
      DequeueKeepsInv(s, exchange(k));
      ServeKeepsInv(Dequeue(s, exchange(k)), exchange, k + 1, waits);
      forall x | 0 <= x < |s.slots| && s.slots[x] != Pending
        ensures r.state.slots[x] == s.slots[x]
      {
        assert x != s.items[0].slot;
      }
    } else if s.accepting && waits != [] {
      match waits[0]
      case Arrive(q) =>
        EnqueueKeepsInv(s, q);
        ServeKeepsInv(Enqueue(s, q), exchange, k, waits[1..]);
      case Close =>
        ServeKeepsInv(s.(accepting := false), exchange, k, waits[1..]);
      case CancelWait =>
    }
  }

  /** A session keeps the invariant, the task and the restart settings, and
      never writes a settled slot again. */
  lemma SessionKeepsInv(s: HostState, env: SessionEnv)
    requires Inv(s)
    ensures var r := Session(s, env);
      && Inv(r.state)
      && r.state.task == s.task && r.state.restarting == s.restarting
      && r.state.restartDelay == s.restartDelay && r.state.restartLog == s.restartLog
      && |r.state.slots| >= |s.slots|
      && (forall x :: 0 <= x < |s.slots| && s.slots[x] != Pending ==> r.state.slots[x] == s.slots[x])
  {
    if !env.canceledAtStart && env.launch.Launched? {
      ServeEnds(s, env.exchange, 0, env.waits);
      ServeKeepsInv(s, env.exchange, 0, env.waits);
    }
  }

  /** After the dequeue loop every served item's slot holds the outcome
      recorded for it. */
  lemma ServeSettles(s: HostState, exchange: nat -> Exchange, k: nat, waits: seq<WaitEvent>)
    requires Inv(s)
    ensures Settled(Serve(s, exchange, k, waits).state)
  {
    ServeKeepsInv(s, exchange, k, waits);
  }

  /** One session (`RunOnce`): nothing is dequeued when the token is already
      cancelled or the process does not start; a normal end means the dequeue
      reported no item. */
  lemma SessionEarlyExits(s: HostState, env: SessionEnv)
    ensures var r := Session(s, env);
      && (env.canceledAtStart ==> r == Step(s, Aborted(OperationCanceledError)))
      && (!env.canceledAtStart && !env.launch.Launched? ==> r.state == s && (r.out.NotLaunched? || r.out.Aborted?))
      && (r.out.Drained? ==> r.state.items == [] && !r.state.accepting)
  {
    if !env.canceledAtStart && env.launch.Launched? {
      ServeEnds(s, env.exchange, 0, env.waits);
    }
  }

  /** The dequeue loop sets the slot of the k-th item queued at its start to
      the k-th round trip's outcome. */
  lemma ServeSlots(s: HostState, exchange: nat -> Exchange, waits: seq<WaitEvent>)
    requires Settled(Serve(s, exchange, 0, waits).state)
    ensures var t := Serve(s, exchange, 0, waits).state;
      forall j :: 0 <= j < |s.items| ==>
        s.items[j].slot < |t.slots| && t.slots[s.items[j].slot] == Resolution(exchange(j))
  {
    var t := Serve(s, exchange, 0, waits).state;
    ServeOrder(s, exchange, 0, waits);
    ServeOutcomes(s, exchange, 0, waits);
    forall j | 0 <= j < |s.items|
      ensures s.items[j].slot < |t.slots| && t.slots[s.items[j].slot] == Resolution(exchange(j))
    {
      var i := |s.served| + j;
      assert t.served[i].entry == s.items[j];
      assert t.served[i].outcome == Resolution(exchange(j));
      assert t.slots[t.served[i].entry.slot] == t.served[i].outcome;
    }
  }

  /** One session whose process started: every item queued at the start is
      dequeued in order and its slot is set to the outcome of its own round
      trip (the k-th item dequeued to the k-th line read back). */
  lemma SessionServesInOrder(s: HostState, env: SessionEnv)
    requires Inv(s)
    requires !env.canceledAtStart && env.launch.Launched?
    ensures var t := Session(s, env).state;
      && t.items == []
      && (forall j :: 0 <= j < |s.items| ==>
            s.items[j].slot < |t.slots| && t.slots[s.items[j].slot] == Resolution(env.exchange(j)))
  {
    ServeEnds(s, env.exchange, 0, env.waits);
    ServeSettles(s, env.exchange, 0, env.waits);
    ServeSlots(s, env.exchange, env.waits);
  }

  /** Entering the delay keeps the invariant and sets the flag. */
  lemma BeginDelayKeepsInv(s: HostState)
    requires Inv(s) && !s.restarting
    ensures Inv(BeginDelay(s)) && BeginDelay(s).restarting
  {
    assert Alternating(s.restartLog + [true]);
  }

  /** Leaving the delay keeps the invariant and clears the flag. */
  lemma EndDelayKeepsInv(s: HostState)
    requires Inv(s) && s.restarting
    ensures Inv(EndDelay(s)) && !EndDelay(s).restarting
  {
    assert Alternating(s.restartLog + [false]);
  }

  /** The invariant does not mention the task. */
  lemma InvIgnoresTask(s: HostState, task: TaskPhase)
    requires Inv(s)
    ensures Inv(s.(task := task))
  {
  }

  /** The restart loop (`Run`) keeps the invariant; the host task completes
      exactly when the loop exits (zero delay) or the cancelled delay throws;
      `IsRestarting` is true exactly while the loop sits in the delay. */
  lemma {:induction false} SuperviseContract(s: HostState, rounds: seq<Round>)
    requires Inv(s) && s.task == Running && !s.restarting
    ensures var r := Supervise(s, rounds);
      && Inv(r.state)
      && r.state.restartDelay == s.restartDelay
      && r.state.task == (if r.out == Finished || r.out == DelayCanceled then Completed else Running)
      && (r.state.restarting <==> r.out == InDelay)
    decreases |rounds|
  {
    if rounds != [] {
      var r := Session(s, rounds[0].session);
      SessionKeepsInv(s, rounds[0].session);
      if !r.out.Suspended? {
        var d := BeginDelay(r.state);
        BeginDelayKeepsInv(r.state);
        EndDelayKeepsInv(d);
        InvIgnoresTask(EndDelay(d), Completed);
        if rounds[0].delay.Elapsed? && EndDelay(d).restartDelay != 0 {
          SuperviseContract(EndDelay(d), rounds[1..]);
        }
      }
    }
  }

  /** With `AutoRestartDelay` zero the loop runs exactly one session: later
      rounds are never reached and the loop does not run out of rounds. */
  lemma ZeroDelayRunsOnce(s: HostState, rounds: seq<Round>)
    requires s.restartDelay == 0 && rounds != []
    ensures Supervise(s, rounds) == Supervise(s, rounds[..1])
    ensures Supervise(s, rounds).out != OutOfRounds
  {
    var env := rounds[0].session;
    if !env.canceledAtStart && env.launch.Launched? {
      ServeEnds(s, env.exchange, 0, env.waits);
    }
  }

  /** Disposing does not stop the loop: once the channel is closed and empty,
      every session drains at once, and with a non-zero delay that elapses the
      loop restarts for as long as there are rounds. */
  lemma {:induction false} ClosedChannelRestartsForever(s: HostState, rounds: seq<Round>)
    requires s.items == [] && !s.accepting && s.restartDelay != 0
    requires forall i :: 0 <= i < |rounds| ==> rounds[i].delay == Elapsed
    ensures Supervise(s, rounds).out == OutOfRounds
    ensures Supervise(s, rounds).state.task == s.task
    ensures Supervise(s, rounds).state.served == s.served
    decreases |rounds|
  {
    if rounds != [] {
      var r := Session(s, rounds[0].session);
      assert r.state == s;
      assert rounds[0].delay == Elapsed;
      ClosedChannelRestartsForever(EndDelay(BeginDelay(s)), rounds[1..]);
    }
  }

  // ------------------------------------------------- the token is sticky

  /** The dequeue loop stops on the token only while waiting: an end by
      cancellation comes from a cancelled wait, and a cancelled wait among
      the waits keeps the loop from being left waiting. */
  lemma {:induction false} CancelWaitDecides(s: HostState, exchange: nat -> Exchange, k: nat, waits: seq<WaitEvent>)
    ensures Serve(s, exchange, k, waits).out == Aborted(OperationCanceledError) ==> CancelWait in waits
    ensures CancelWait in waits ==> !Serve(s, exchange, k, waits).out.Suspended?
    decreases |waits|, |s.items|
  {
    if s.items != [] {
      CancelWaitDecides(Dequeue(s, exchange(k)), exchange, k + 1, waits);
    } else if s.accepting && waits != [] {
      assert forall w :: w in waits[1..] ==> w in waits;
      match waits[0]
      case Arrive(q) => CancelWaitDecides(Enqueue(s, q), exchange, k, waits[1..]);
      case Close => CancelWaitDecides(s.(accepting := false), exchange, k, waits[1..]);
      case CancelWait =>
    }
  }

  /** A session saw the token cancelled: at the check at its start or while
      it waited on the channel. */
  predicate SeesCancel(env: SessionEnv)
  {
    env.canceledAtStart || CancelWait in env.waits
  }

  /** The host has one token for its whole life: once a session has seen it
      cancelled, that round's delay is cancelled and every later session finds
      it cancelled at its start. */
  predicate StickyCancel(rounds: seq<Round>)
  {
    forall i :: 0 <= i < |rounds| && SeesCancel(rounds[i].session) ==>
      && rounds[i].delay == CanceledDuringDelay
      && (forall j :: i < j < |rounds| ==> rounds[j].session.canceledAtStart)
  }

  /** A session that ends by cancellation saw the token cancelled, and one
      that saw it is not left waiting. */
  lemma SessionSeesCancel(s: HostState, env: SessionEnv)
    ensures Session(s, env).out == Aborted(OperationCanceledError) ==> SeesCancel(env)
    ensures SeesCancel(env) ==> !Session(s, env).out.Suspended?
  {
    if !env.canceledAtStart && env.launch.Launched? {
      CancelWaitDecides(s, env.exchange, 0, env.waits);
    }
  }

  /** With a sticky token, no session runs after one that saw it cancelled:
      the restart loop has ended by that round, and when that round is the
      first, the cancelled delay ends it. */
  lemma {:induction false} CancelEndsRestarts(s: HostState, rounds: seq<Round>, i: nat)
    requires StickyCancel(rounds) && i < |rounds| && SeesCancel(rounds[i].session)
    ensures Supervise(s, rounds) == Supervise(s, rounds[..i + 1])
    ensures Supervise(s, rounds).out != OutOfRounds
    ensures i == 0 ==> Supervise(s, rounds).out == DelayCanceled
    decreases i
  {
    var r := Session(s, rounds[0].session);
    assert rounds[..i + 1][0] == rounds[0];
    if i == 0 {
      SessionSeesCancel(s, rounds[0].session);
    } else if !r.out.Suspended? && rounds[0].delay.Elapsed? && EndDelay(BeginDelay(r.state)).restartDelay != 0 {
      var e := EndDelay(BeginDelay(r.state));
      assert StickyCancel(rounds[1..]) by {
        forall a | 0 <= a < |rounds[1..]| && SeesCancel(rounds[1..][a].session)
          ensures rounds[1..][a].delay == CanceledDuringDelay
          ensures forall b :: a < b < |rounds[1..]| ==> rounds[1..][b].session.canceledAtStart
        {
          assert rounds[1..][a] == rounds[a + 1];
          forall b | a < b < |rounds[1..]|
            ensures rounds[1..][b].session.canceledAtStart
          {
            assert rounds[1..][b] == rounds[b + 1];
          }
        }
      }
      assert rounds[1..][i - 1] == rounds[i];
      CancelEndsRestarts(e, rounds[1..], i - 1);
      assert rounds[..i + 1][1..] == rounds[1..][..i];
    }
  }

  /** The case the code's single token settles at once: a session ended by
      cancellation is followed by a cancelled delay, so the loop ends with
      the task completed and `IsRestarting` clear. */
  lemma CancelStopsRestart(s: HostState, rounds: seq<Round>)
    requires StickyCancel(rounds) && rounds != []
    requires Session(s, rounds[0].session).out == Aborted(OperationCanceledError)
    ensures Supervise(s, rounds).out == DelayCanceled
    ensures Supervise(s, rounds).state.task == Completed && !Supervise(s, rounds).state.restarting
  {
    SessionSeesCancel(s, rounds[0].session);
    CancelEndsRestarts(s, rounds, 0);
  }
}

=== FILE: QueryText.dfy ===
/** The query text `TryAnalyze` sends for a snapshot of the output pixels:
    one decimal token per pixel, the darkness `255 - b` of the grey level
    `b`, separated by single spaces. */
module QueryText {
  import opened Wrappers
  import opened Text

  newtype byte = x: int | 0 <= x < 256

  /** `(255 - b).ToString()`. */
  function Token(b: byte): (t: string)
    ensures t != [] && NoSpace(t) && ParseNat(t) == Some(255 - b as int)
  {
    DecimalDigits(255 - b as int);
    Decimal(255 - b as int)
  }

  function Tokens(output: seq<byte>): (ts: seq<string>)
    ensures |ts| == |output|
    ensures forall i :: 0 <= i < |output| ==> ts[i] == Token(output[i])
  {
    if output == [] then [] else [Token(output[0])] + Tokens(output[1..])
  }

  /** The query of a snapshot: its tokens joined by single spaces. Only
      the empty snapshot gives the empty query. */
  function Encode(output: seq<byte>): (q: string)
    ensures q == "" <==> output == []
  {
    Join(Tokens(output))
  }

  /** Reads tokens back into pixels; a token that is not a numeral in
      [0, 255] is rejected. */
  function DecodeTokens(ts: seq<string>): Option<seq<byte>>
  {
    if ts == [] then Some([])
    else match ParseNat(ts[0])
      case None => None
      case Some(n) =>
        if n > 255 then None
        else match DecodeTokens(ts[1..])
          case None => None
          case Some(rest) => Some([(255 - n) as byte] + rest)
  }

  /** The inverse reading of a query; the empty text is the empty snapshot. */
  function Decode(q: string): Option<seq<byte>>
  {
    if q == "" then Some([]) else DecodeTokens(Split(q))
  }

  lemma {:induction false} DecodeTokensInverse(output: seq<byte>)
    ensures DecodeTokens(Tokens(output)) == Some(output)
  {
    if output != [] {
      DecodeTokensInverse(output[1..]);
      assert Tokens(output)[1..] == Tokens(output[1..]);
      assert [output[0]] + output[1..] == output;
    }
  }

  /** A query has exactly one token per pixel, and token `i` is the decimal
      of `255 - output[i]`, a number in [0, 255]. */
  lemma TokenPerPixel(output: seq<byte>)
    requires output != []
    ensures Encode(output) != ""
    ensures |Split(Encode(output))| == |output|
    ensures forall i :: 0 <= i < |output| ==>
      Split(Encode(output))[i] == Decimal(255 - output[i] as int) &&
      ParseNat(Split(Encode(output))[i]) == Some(255 - output[i] as int)
  {
    var ts := Tokens(output);
    SplitJoin(ts);
  }

  /** Decoding a query gives back the snapshot it was made from. */
  lemma RoundTrip(output: seq<byte>)
    ensures Decode(Encode(output)) == Some(output)
  {
    if output != [] {
      TokenPerPixel(output);
      SplitJoin(Tokens(output));
      DecodeTokensInverse(output);
    }
  }

  /** Different snapshots give different queries. */
  lemma EncodeInjective(a: seq<byte>, b: seq<byte>)
    ensures Encode(a) == Encode(b) ==> a == b
  {
    RoundTrip(a);
    RoundTrip(b);
  }
}

=== FILE: ServerHost.dfy ===
/** `CliServerHost` as a class: the fields the source updates in place, and
    methods proved to step the state as the functions of `HostModel` say. */
module ServerHost {
  import opened Wrappers
  import opened Channel
  import opened HostModel
  import HostProperties

  class CliServerHost {
    /** `_queue`: the request channel, created with room for 16 items. */
    const queue: AsyncChannel<Entry>
    const command: string
    const arguments: string
    /** `_hostTask`. */
    var hostTask: TaskPhase
    var isRestarting: bool
    /** `AutoRestartDelay` in milliseconds. */
    var autoRestartDelay: nat
    /** The callers' response slots, by id. */
    var slots: seq<SlotState>
    ghost var served: seq<Served>
    ghost var pipe: seq<PipeOp>
    ghost var restartLog: seq<bool>

    ghost function Abs(): HostState
      reads this, queue
    {
      HostState(hostTask, isRestarting, autoRestartDelay, queue.items, queue.accepting,
                slots, served, pipe, restartLog)
    }

    ghost predicate Valid()
      reads this, queue
    {
      queue.capacity == Capacity && Inv(Abs())
    }

    constructor (command: string, arguments: string)
      ensures Valid() && fresh(queue)
      ensures Abs() == Initial() && this.command == command && this.arguments == arguments
    {
      this.command := command;
      this.arguments := arguments;
      queue := new AsyncChannel<Entry>(Capacity);
      hostTask := NoTask;
      isRestarting := false;
      autoRestartDelay := DefaultRestartDelay;
      slots := [];
      served := [];
      pipe := [];
      restartLog := [];
      HostProperties.InitialInv();
    }

    /** `IsRunning`: a host task exists and has not completed. */
    predicate IsRunning()
      reads this
      ensures IsRunning() <==> hostTask != NoTask && hostTask != Completed
    {
      hostTask == Running
    }

    /** Fails with `AlreadyRunning` while the host task runs; otherwise starts
        it and returns the host itself. Nothing else changes. */
    method Start() returns (r: Result<CliServerHost, HostError>)
      requires Valid()
      modifies this
      ensures Valid()
      ensures old(hostTask) == Running ==> r == Err(AlreadyRunning) && Abs() == old(Abs())
      ensures old(hostTask) != Running ==> r == Ok(this) && Abs() == old(Abs()).(task := Running)
    {
      if IsRunning() {
        return Err(AlreadyRunning);
      }
      HostProperties.InvIgnoresTask(Abs(), Running);
      hostTask := Running;
      return Ok(this);
    }

    /** Fails with `NotRunning` unless the host task runs; otherwise puts the
        query with a fresh pending slot at the tail of the channel, and
        nothing else changes. The channel refuses the put once closed. */
    method Query(query: string, canceled: bool) returns (r: QueryOutcome)
      requires Valid()
      modifies this, queue
      ensures Valid()
      ensures old(hostTask) != Running ==> r == Failed(NotRunning) && Abs() == old(Abs())
      ensures old(hostTask) == Running && !old(queue.accepting) ==>
                r == Failed(EnqueueCompleted) && Abs() == old(Abs())
      ensures old(hostTask) == Running && old(queue.accepting) && |old(queue.items)| == Capacity ==>
                r == (if canceled then Failed(HostError.PutCanceled) else MustWait) && Abs() == old(Abs())
      ensures old(hostTask) == Running && old(queue.accepting) && |old(queue.items)| < Capacity ==>
                r == Enqueued(|old(slots)|) && Abs() == Enqueue(old(Abs()), query)
    {
      if hostTask != Running {
        return Failed(NotRunning);
      }
      var slot := |slots|;
      if queue.accepting && |queue.items| < Capacity {
        HostProperties.EnqueueKeepsInv(Abs(), query);
      }
      var put := queue.PutAsync(Entry(query, slot), canceled);
      if put.Added? {
        slots := slots + [Pending];
        r := Enqueued(slot);
      } else if put.Rejected? {
        r := Failed(EnqueueCompleted);
      } else if put.MustWaitForRoom? {
        r := MustWait;
      } else {
        r := Failed(HostError.PutCanceled);
      }
    }

    /** Closes the channel's producer side and changes nothing else: the host
        task and the restart flag are untouched. */
    method Dispose()
      requires Valid()
      modifies queue
      ensures Valid()
      ensures Abs() == old(Abs()).(accepting := false)
    {
      queue.CompletePut();
    }

    /** The body of the per-item `try`: write the query, then read one line
        unless the write threw; the slot outcome is the one `Resolution`
        assigns, and the pipe sees the operations `PipeOps` lists. This is
        the statement-by-statement form of the `try`/`catch` that `Settle`
        runs; the two functions are the value-level reading of the same
        code, and the ensures ties the two together. */
    method Answer(query: string, e: Exchange) returns (outcome: SlotState, ops: seq<PipeOp>)
      ensures outcome == Resolution(e) && ops == PipeOps(query, e)
      ensures outcome != Pending
    {
      ops := [WriteAttempt(query)];
      match e.write {
        case WriteFailed(f) =>
          outcome := if f == TaskCanceledError then Canceled else Faulted(f);
        case Written =>
          ops := ops + [ReadLine];
          if e.canceledAfterRead {
            outcome := Faulted(OperationCanceledError);
          } else {
            match e.read {
              case Line(text) => outcome := Result(Some(text));
              case EndOfStream => outcome := Result(None);
              case ReadFailed(f) => outcome := Faulted(AggregateError(f));
            }
          }
      }
    }

    /** Completes the slot of the item just pulled from the channel, as the
        dequeue step of `HostModel` does. */
    method Settle(ghost before: HostState, entry: Entry, e: Exchange)
      requires Inv(before) && before.items != [] && entry == before.items[0]
      requires queue.capacity == Capacity && Abs() == before.(items := before.items[1..])
      modifies this
      ensures Valid() && Abs() == Dequeue(before, e)
    {
      var outcome, ops := Answer(entry.query, e);
      HostProperties.DequeueKeepsInv(before, e);
      slots, served, pipe := slots[entry.slot := outcome], served + [Served(entry, outcome)], pipe + ops;
    }

    /** What another caller does while the session waits on an empty,
        open channel: a `Query` that enqueues at once, or `Dispose`. */
    method Admit(event: WaitEvent)
      requires Valid() && hostTask == Running && queue.items == [] && queue.accepting
      requires !event.CancelWait?
      modifies this, queue
      ensures Valid() && hostTask == Running
      ensures event.Arrive? ==> Abs() == Enqueue(old(Abs()), event.query)
      ensures event.Close? ==> Abs() == old(Abs()).(accepting := false)
    {
      match event {
        case Arrive(q) =>
          var _ := Query(q, false);
        case Close =>
          Dispose();
      }
    }

    /** One session: the token check, the launch, then the dequeue loop, with
        one line written and one line read per item and the slot set by the
        per-item `catch`. */
    method RunOnce(env: SessionEnv) returns (end: SessionEnd)
      requires Valid() && hostTask == Running
      modifies this, queue
      ensures Valid()
      ensures Step(Abs(), end) == Session(old(Abs()), env)
    {
      if env.canceledAtStart {
        return Aborted(OperationCanceledError);
      }
      match env.launch {
        case LaunchThrew(m) => return Aborted(LaunchError(m));
        case NotStarted => return NotLaunched;
        case Launched =>
      }
      var k := 0;
      var waits := env.waits;
      while true
        invariant Valid() && hostTask == Running
        invariant Serve(Abs(), env.exchange, k, waits) == Session(old(Abs()), env)
        decreases |waits|, |queue.items|
      {
        ghost var before := Abs();
        var pulled := queue.PullAsync();
        match pulled {
          case NotDequeued =>
            return Drained;
          case MustWaitForItem =>
            if waits == [] {
              return Suspended;
            }
            if waits[0].CancelWait? {
              return Aborted(OperationCanceledError);
            }
            Admit(waits[0]);
            waits := waits[1..];
          case Pulled(entry) =>
            Settle(before, entry, env.exchange(k));
            k := k + 1;
        }
      }
    }

    /** `Task.Delay(AutoRestartDelay)` inside `IsRestarting = true` and the
        `finally` that clears it: the flag stays set only while the delay is
        still pending. */
    method Delay(delay: DelayEnd)
      requires Valid() && !isRestarting
      modifies this
      ensures Valid()
      ensures delay.StillDelaying? ==> Abs() == BeginDelay(old(Abs()))
      ensures !delay.StillDelaying? ==> Abs() == EndDelay(BeginDelay(old(Abs())))
    {
      HostProperties.BeginDelayKeepsInv(Abs());
      isRestarting := true;
      restartLog := restartLog + [true];
      if !delay.StillDelaying? {
        HostProperties.EndDelayKeepsInv(Abs());
        isRestarting := false;
        restartLog := restartLog + [false];
      }
    }

    /** The restart loop: a session whose exception is swallowed, then the
        delay with `IsRestarting` set and cleared by the `finally`, repeated
        while the delay is not zero. The host task completes when the loop
        exits or the cancelled delay throws out of it. */
    method Run(rounds: seq<Round>) returns (end: RunEnd)
      requires Valid() && hostTask == Running && !isRestarting
      modifies this, queue
      ensures Valid()
      ensures Step(Abs(), end) == Supervise(old(Abs()), rounds)
    {
      var i := 0;
      while true
        invariant 0 <= i <= |rounds|
        invariant Valid() && hostTask == Running && !isRestarting
        invariant Supervise(Abs(), rounds[i..]) == Supervise(old(Abs()), rounds)
        decreases |rounds| - i
      {
        if i == |rounds| {
          return OutOfRounds;
        }
        assert rounds[i..][0] == rounds[i] && rounds[i..][1..] == rounds[i + 1..];
        ghost var before := Abs();
        HostProperties.SessionKeepsInv(before, rounds[i].session);
        var sessionEnd := RunOnce(rounds[i].session);
        if sessionEnd.Suspended? {
          return InSession;
        }
        Delay(rounds[i].delay);
        if rounds[i].delay.StillDelaying? {
          return InDelay;
        }
        if rounds[i].delay.CanceledDuringDelay? {
          HostProperties.InvIgnoresTask(Abs(), Completed);
          hostTask := Completed;
          return DelayCanceled;
        }
        i := i + 1;
        if autoRestartDelay == 0 {
          HostProperties.InvIgnoresTask(Abs(), Completed);
          hostTask := Completed;
          return Finished;
        }
      }
    }
  }
}

=== FILE: Text.dfy ===
/** Text helpers shared by the command-line parser and the query encoder:
    joining and splitting on single spaces, decimal numerals, ASCII lower case. */
module Text {
  import opened Wrappers

  /** `string.Join(" ", words)`: the words with one space between neighbours. */
  function Join(words: seq<string>): string
  {
    if |words| == 0 then ""
    else if |words| == 1 then words[0]
    else words[0] + " " + Join(words[1..])
  }

  /** Splits at every space; `Split("")` is `[""]`, as with `string.Split(' ')`. */
  function Split(s: string): (r: seq<string>)
    ensures |r| >= 1
  {
    if s == [] then [""]
    else
      var rest := Split(s[1..]);
      if s[0] == ' ' then [""] + rest else [[s[0]] + rest[0]] + rest[1..]
  }

  predicate NoSpace(w: string)
  {
    forall i :: 0 <= i < |w| ==> w[i] != ' '
  }

  /** A space-free prefix is glued onto the first field of the split. */
  lemma {:induction false} SplitPrefix(w: string, s: string)
    requires NoSpace(w)
    ensures Split(w + s) == [w + Split(s)[0]] + Split(s)[1..]
  {
    if w != [] {
      assert (w + s)[1..] == w[1..] + s;
      SplitPrefix(w[1..], s);
      assert [w[0]] + (w[1..] + Split(s)[0]) == w + Split(s)[0];
    } else {
      var r := Split(s);
      assert w + s == s && w + r[0] == r[0];
      assert r == [r[0]] + r[1..];
    }
  }

  /** Splitting undoes joining, for a non-empty list of space-free words. */
  lemma {:induction false} SplitJoin(words: seq<string>)
    requires |words| >= 1
    requires forall k :: 0 <= k < |words| ==> NoSpace(words[k])
    ensures Split(Join(words)) == words
  {
    if |words| == 1 {
      SplitPrefix(words[0], "");
      assert words[0] + "" == words[0];
    } else {
      SplitJoin(words[1..]);
      var rest := " " + Join(words[1..]);
      assert words[0] + " " + Join(words[1..]) == words[0] + rest;
      SplitPrefix(words[0], rest);
      assert rest[1..] == Join(words[1..]);
      assert Split(rest) == [""] + words[1..];
      assert words[0] + "" == words[0];
    }
  }

  /** Joining cannot tell a word holding a space from the two words on
      either side of it. */
  lemma {:induction false} JoinSplitsSpaced(pre: seq<string>, a: string, b: string, post: seq<string>)
    ensures Join(pre + [a + " " + b] + post) == Join(pre + [a, b] + post)
    decreases |pre|
  {
    if pre == [] {
      assert [] + [a + " " + b] + post == [a + " " + b] + post;
      assert [] + [a, b] + post == [a, b] + post;
      assert ([a, b] + post)[1..] == [b] + post;
      if post != [] {
        assert ([a + " " + b] + post)[1..] == post;
        assert ([b] + post)[1..] == post;
        assert a + " " + b + " " + Join(post) == a + " " + (b + " " + Join(post));
      }
    } else {
      JoinSplitsSpaced(pre[1..], a, b, post);
      assert (pre + [a + " " + b] + post)[1..] == pre[1..] + [a + " " + b] + post;
      assert (pre + [a, b] + post)[1..] == pre[1..] + [a, b] + post;
    }
  }

  predicate IsDigit(c: char)
  {
    '0' <= c <= '9'
  }

  function DigitChar(d: nat): (c: char)
    requires d < 10
    ensures IsDigit(c) && c as int - '0' as int == d
  {
    ('0' as int + d) as char
  }

  /** `n.ToString()` for a non-negative integer: decimal digits, no sign, no leading zero. */
  function Decimal(n: nat): string
    decreases n
  {
    if n < 10 then [DigitChar(n)] else Decimal(n / 10) + [DigitChar(n % 10)]
  }

  predicate AllDigits(s: string)
  {
    forall i :: 0 <= i < |s| ==> IsDigit(s[i])
  }

  /** The value of a string of decimal digits, most significant first. */
  function DigitsValue(s: string): nat
    requires AllDigits(s)
  {
    if s == [] then 0
    else DigitsValue(s[..|s| - 1]) * 10 + (s[|s| - 1] as int - '0' as int)
  }

  /** A partial parse of a non-negative decimal numeral. */
  function ParseNat(s: string): Option<nat>
  {
    if s != [] && AllDigits(s) then Some(DigitsValue(s)) else None
  }

  /** The numeral of `n` is non-empty, made of digits (so free of spaces), and has value `n`. */
  lemma {:induction false} DecimalDigits(n: nat)
    ensures Decimal(n) != [] && AllDigits(Decimal(n)) && NoSpace(Decimal(n))
    ensures DigitsValue(Decimal(n)) == n
    decreases n
  {
    if n >= 10 {
      DecimalDigits(n / 10);
      var d := Decimal(n);
      assert d[..|d| - 1] == Decimal(n / 10);
    }
  }

  /** Printing a number in decimal and parsing it back gives the number. */
  lemma ParseDecimal(n: nat)
    ensures ParseNat(Decimal(n)) == Some(n)
  {
    DecimalDigits(n);
  }

  /** Only the ASCII capitals change, and they become small letters. */
  function LowerChar(c: char): (l: char)
    ensures l == c || ('A' <= c <= 'Z' && 'a' <= l <= 'z')
  {
    if 'A' <= c <= 'Z' then (c as int + 32) as char else c
  }

  /** `ToLowerInvariant` restricted to ASCII letters, character by character. */
  function Lower(s: string): (r: string)
    ensures |r| == |s|
    ensures forall k :: 0 <= k < |s| ==> r[k] == LowerChar(s[k])
  {
    seq(|s|, k requires 0 <= k < |s| => LowerChar(s[k]))
  }

  /** Lower-casing twice is lower-casing once. */
  lemma LowerIdempotent(s: string)
    ensures Lower(Lower(s)) == Lower(s)
  {
  }

  /** Lower-casing distributes over concatenation. */
  lemma LowerAppend(a: string, b: string)
    ensures Lower(a + b) == Lower(a) + Lower(b)
  {
  }
}

=== FILE: VisualTree.dfy ===
/** `UIHelpers.FindChild<T>` over an abstract visual tree: a depth-first
    search that descends only through elements that are not of type `T`. */
module UIHelpers {
  import opened Wrappers

  /** A visual-tree element: whether it is a `T`, its `Name` when it is a
      `FrameworkElement` (`None` otherwise), and its children in order. */
  datatype Element = Element(isT: bool, name: Option<string>, children: seq<Element>)

  datatype SearchError = ArgumentNull

  /** A `T` child the search may return: any `T` when the name is null or
      empty, otherwise a `T` that is a `FrameworkElement` of that name. */
  predicate Qualifies(c: Element, name: Option<string>)
  {
    c.isT && (name.Some? && name.value != "" ==> c.name == name)
  }

  /** The elements the search would return, in the order it meets them,
      from child `i` of `e` on: a non-`T` child contributes its own
      hits, a `T` child itself if it qualifies, and nothing below it. */
  function HitsFrom(e: Element, i: nat, name: Option<string>): seq<Element>
    decreases e, |e.children| - i
  {
    if i >= |e.children| then []
    else
      var c := e.children[i];
      (if !c.isT then HitsFrom(c, 0, name) else if Qualifies(c, name) then [c] else [])
      + HitsFrom(e, i + 1, name)
  }

  function Hits(e: Element, name: Option<string>): seq<Element>
  {
    HitsFrom(e, 0, name)
  }

  function First(s: seq<Element>): Option<Element>
  {
    if s == [] then None else Some(s[0])
  }

  /** The search below a non-null root: the children in index order, the
      recursion into non-`T` children, and the stop at the first hit. */
  method Search(root: Element, name: Option<string>) returns (found: Option<Element>)
    ensures found == First(Hits(root, name))
    decreases root
  {
    found := None;
    var childrenCount := |root.children|;
    for i := 0 to childrenCount
      invariant found == None && Hits(root, name) == HitsFrom(root, i, name)
    {
      var child := root.children[i];
      if !child.isT {
        found := Search(child, name);
        if found.Some? {
          return;
        }
      } else if name.Some? && name.value != "" {
        if child.name == name {
          found := Some(child);
          return;
        }
      } else {
        found := Some(child);
        return;
      }
    }
  }

  /** `FindChild`: a null root throws `ArgumentNullException`; otherwise the
      first qualifying element in search order, or null when there is none. */
  method FindChild(root: Option<Element>, name: Option<string>) returns (r: Result<Option<Element>, SearchError>)
    ensures root == None <==> r == Err(ArgumentNull)
    ensures root.Some? ==> r == Ok(First(Hits(root.value, name)))
    ensures root.Some? ==> (r == Ok(None) <==> forall path :: !Reaches(root.value, path, name))
  {
    if root == None {
      return Err(ArgumentNull);
    }
    var found := Search(root.value, name);
    if found == None {
      forall path | Reaches(root.value, path, name)
        ensures false
      {
        ReachableIsFound(root.value, path, name);
      }
    } else {
      HitsReachable(root.value, 0, name);
    }
    return Ok(found);
  }

  /** Every hit is a `T`, and with a non-empty name it carries that name. */
  lemma {:induction false} HitsQualify(e: Element, i: nat, name: Option<string>)
    ensures forall h :: h in HitsFrom(e, i, name) ==> Qualifies(h, name)
    decreases e, |e.children| - i
  {
    if i < |e.children| {
      var c := e.children[i];
      if !c.isT {
        HitsQualify(c, 0, name);
      }
      HitsQualify(e, i + 1, name);
    }
  }

  /** A non-null result is a `T`; with a non-empty name, it has that name. */
  lemma FoundQualifies(e: Element, name: Option<string>)
    ensures First(Hits(e, name)).Some? ==> Qualifies(First(Hits(e, name)).value, name)
  {
    HitsQualify(e, 0, name);
  }

  /** A child contributes no hit: a `T` that does not qualify, or a
      non-`T` whose own search finds nothing. */
  predicate Barren(c: Element, name: Option<string>)
  {
    if c.isT then !Qualifies(c, name) else Hits(c, name) == []
  }

  /** Children that contribute no hit are passed over. */
  lemma {:induction false} NoHitsFrom(e: Element, i: nat, j: nat, name: Option<string>)
    requires i <= j <= |e.children|
    requires forall k :: i <= k < j ==> Barren(e.children[k], name)
    ensures HitsFrom(e, i, name) == HitsFrom(e, j, name)
    decreases j - i
  {
    if i < j {
      NoHitsFrom(e, i + 1, j, name);
      assert [] + HitsFrom(e, i + 1, name) == HitsFrom(e, i + 1, name);
    }
  }

  /** Children are examined in index order and the search stops at the
      first hit: a qualifying `T` child is the result when every child
      before it is a `T` that does not qualify or a subtree without a hit,
      whatever lies after it. */
  lemma FirstQualifyingChild(e: Element, i: nat, name: Option<string>)
    requires i < |e.children| && Qualifies(e.children[i], name)
    requires forall k :: 0 <= k < i ==> Barren(e.children[k], name)
    ensures First(Hits(e, name)) == Some(e.children[i])
  {
    NoHitsFrom(e, 0, i, name);
  }

  /** With a null or empty name, every `T` qualifies: the first `T` child
      reached after subtrees without a `T` is the result. */
  lemma UnnamedTakesFirstT(e: Element, i: nat, name: Option<string>)
    requires name == None || name == Some("")
    requires i < |e.children| && e.children[i].isT
    requires forall k :: 0 <= k < i ==> !e.children[k].isT && Hits(e.children[k], name) == []
    ensures First(Hits(e, name)) == Some(e.children[i])
  {
    FirstQualifyingChild(e, i, name);
  }

  /** The tree as the search sees it: below the root, a `T` element's
      children are dropped. */
  function Pruned(c: Element): Element
    decreases c, 1
  {
    if c.isT then c.(children := []) else PrunedRoot(c)
  }

  function PrunedRoot(e: Element): Element
    decreases e, 0
  {
    e.(children := seq(|e.children|, k requires 0 <= k < |e.children| => Pruned(e.children[k])))
  }

  /** Pruning keeps each child's place, its type and its name. */
  lemma PrunedChild(e: Element, i: nat)
    requires i < |e.children|
    ensures |PrunedRoot(e).children| == |e.children|
    ensures PrunedRoot(e).children[i] == Pruned(e.children[i])
    ensures Pruned(e.children[i]).isT == e.children[i].isT && Pruned(e.children[i]).name == e.children[i].name
  {
  }

  /** Elements with their subtrees dropped. */
  function Stripped(hs: seq<Element>): seq<Element>
  {
    if hs == [] then [] else [hs[0].(children := [])] + Stripped(hs[1..])
  }

  lemma {:induction false} StrippedAppend(a: seq<Element>, b: seq<Element>)
    ensures Stripped(a + b) == Stripped(a) + Stripped(b)
  {
    if a != [] {
      assert (a + b)[1..] == a[1..] + b;
      StrippedAppend(a[1..], b);
    } else {
      assert a + b == b;
    }
  }

  /** The search never looks below a `T` child: on the tree with every `T`
      element's subtree removed it meets the same elements in the same
      order, up to those removed subtrees. */
  lemma {:induction false} NotBelowT(e: Element, i: nat, name: Option<string>)
    ensures Stripped(HitsFrom(e, i, name)) == HitsFrom(PrunedRoot(e), i, name)
    decreases e, |e.children| - i
  {
    var pe := PrunedRoot(e);
    assert |pe.children| == |e.children|;
    if i < |e.children| {
      var c := e.children[i];
      PrunedChild(e, i);
      var p := pe.children[i];
      var own := if !c.isT then HitsFrom(c, 0, name) else if Qualifies(c, name) then [c] else [];
      var pown := if !p.isT then HitsFrom(p, 0, name) else if Qualifies(p, name) then [p] else [];
      if !c.isT {
        NotBelowT(c, 0, name);
        assert p == PrunedRoot(c);
      } else if Qualifies(c, name) {
        assert Stripped(own) == [c.(children := [])];
      }
      assert Stripped(own) == pown;
      NotBelowT(e, i + 1, name);
      StrippedAppend(own, HitsFrom(e, i + 1, name));
      assert HitsFrom(pe, i, name) == pown + HitsFrom(pe, i + 1, name);
    }
  }

  /** `path` leads from `e` through children that are not `T` to a
      qualifying element: an element the search can return. */
  ghost predicate Reaches(e: Element, path: seq<nat>, name: Option<string>)
    decreases |path|
  {
    && |path| > 0 && path[0] < |e.children|
    && var c := e.children[path[0]];
       if |path| == 1 then Qualifies(c, name) else !c.isT && Reaches(c, path[1..], name)
  }

  /** No hits from child `i` on means no child from `i` on contributes one. */
  lemma {:induction false} NoneFromAny(e: Element, i: nat, k: nat, name: Option<string>)
    requires i <= k < |e.children| && HitsFrom(e, i, name) == []
    ensures !e.children[k].isT ==> HitsFrom(e.children[k], 0, name) == []
    ensures e.children[k].isT ==> !Qualifies(e.children[k], name)
    decreases k - i
  {
    if i < k {
      NoneFromAny(e, i + 1, k, name);
    }
  }

  /** The result is null only when no qualifying element is reachable
      through non-`T` elements. */
  lemma {:induction false} ReachableIsFound(e: Element, path: seq<nat>, name: Option<string>)
    requires Reaches(e, path, name)
    ensures First(Hits(e, name)).Some?
    decreases |path|
  {
    var c := e.children[path[0]];
    if HitsFrom(e, 0, name) == [] {
      NoneFromAny(e, 0, path[0], name);
      if |path| > 1 {
        ReachableIsFound(c, path[1..], name);
      }
    }
  }

  /** Every hit is reachable: a non-null result lies on a path of non-`T`
      elements from the root. */
  lemma {:induction false} HitsReachable(e: Element, i: nat, name: Option<string>)
    ensures HitsFrom(e, i, name) != [] ==> exists path :: Reaches(e, path, name)
    decreases e, |e.children| - i
  {
    if i < |e.children| && HitsFrom(e, i, name) != [] {
      var c := e.children[i];
      if !c.isT && HitsFrom(c, 0, name) != [] {
        HitsReachable(c, 0, name);
        var p :| Reaches(c, p, name);
        var path := [i] + p;
        assert path[1..] == p;
        assert Reaches(e, path, name);
      } else if c.isT && Qualifies(c, name) {
        assert Reaches(e, [i], name);
      } else {
        HitsReachable(e, i + 1, name);
      }
    }
  }
}

=== FILE: Window.dfy ===
/** `MainWindow` as a class: the properties the command line sets, the
    argument list the local functions of `ParseCommandLineArguments` share,
    the analyzer host, and the two snapshot references `TryAnalyze`
    coordinates on. */
module Window {
  import opened Wrappers
  import opened Text
  import opened CommandLine
  import opened QueryText
  import opened Analysis
  import HostModel
  import ServerHost

  class MainWindow {
    var canvasSize: int
    var outputSize: int
    var penSize: real
    var eraserSize: real
    /** How often `Help` printed the usage and asked the window to close. */
    var helpCount: nat
    /** The `args` list local to `ParseCommandLineArguments`, which the local
        functions `Consume` and `CheckSwitch` capture and change. */
    var args: seq<string>
    /** `_analyzer`; null until a command line names an analyzer. */
    var analyzer: ServerHost.CliServerHost?
    var currentOutput: Option<Snapshot>
    var analyzedOutput: Option<Snapshot>
    var nextId: nat
    var analyzing: bool
    var response: Option<string>

    function Config(): Settings
      reads this
    {
      Settings(canvasSize, outputSize, penSize, eraserSize, helpCount)
    }

    function Snapshots(): AnalysisState
      reads this
    {
      AnalysisState(currentOutput, analyzedOutput, nextId, analyzing, response)
    }

    ghost predicate Valid()
      reads this
    {
      Fresh(Snapshots())
    }

    /** The property initialisers; the command line is parsed by
        `ParseCommandLineArguments` and the first image by `Publish`. */
    constructor ()
      ensures Valid() && Config() == Defaults && Snapshots() == Idle
      ensures args == [] && analyzer == null
    {
      canvasSize, outputSize, penSize, eraserSize, helpCount := 28 * 4, 28, 1.33, 3.0, 0;
      args := [];
      analyzer := null;
      currentOutput, analyzedOutput, nextId, analyzing, response := None, None, 0, false, None;
    }

    /** The local `Help`: print the usage and ask the window to close. */
    method Help()
      modifies this
      ensures Config() == old(Config()).(helpCount := old(helpCount) + 1)
      ensures args == old(args) && analyzer == old(analyzer) && Snapshots() == old(Snapshots())
    {
      helpCount := helpCount + 1;
    }

    /** The local `Consume`: `RemoveAt(0)` `count` times, which throws once
        the list is empty. What is left is the old list without its first
        `count` elements, in the same order. */
    method Consume(count: int) returns (fault: Option<Fault>)
      modifies this
      ensures 0 < count <= |old(args)| ==> fault == None && old(args) == old(args)[..count] + args
      ensures count <= 0 ==> fault == None && args == old(args)
      ensures count > |old(args)| ==> fault == Some(ArgumentOutOfRange) && args == []
      ensures Config() == old(Config()) && analyzer == old(analyzer) && Snapshots() == old(Snapshots())
    {
      var i := 0;
      while i < count
        invariant 0 <= i <= |old(args)| && i <= (if count > 0 then count else 0)
        invariant args == old(args)[i..]
        invariant Config() == old(Config()) && analyzer == old(analyzer) && Snapshots() == old(Snapshots())
      {
        if args == [] {
          return Some(ArgumentOutOfRange);
        }
        args := args[1..];
        i := i + 1;
      }
      return None;
    }

    /** The action given to `CheckSwitch`: `Help`, or a property set from
        `int.Parse(args[1])`; both `args[1]` and the parse can throw. */
    method RunAction(action: Action) returns (fault: Option<Fault>)
      modifies this
      ensures match Apply(old(Config()), action, old(args))
        case Ok(s) => fault == None && Config() == s
        case Err(f) => fault == Some(f) && Config() == old(Config())
      ensures args == old(args) && analyzer == old(analyzer) && Snapshots() == old(Snapshots())
    {
      if action == ShowHelp {
        Help();
        return None;
      }
      if |args| < 2 {
        return Some(ArgumentOutOfRange);
      }
      var parsed := ParseInt32(args[1]);
      if parsed.Err? {
        return Some(parsed.error);
      }
      var n := parsed.value;
      match action {
        case SetCanvasSize => canvasSize := n;
        case SetOutputSize => outputSize := n;
        case SetPenSize => penSize := n as real;
        case SetEraserSize => eraserSize := n as real;
      }
      return None;
    }

    /** The local `CheckSwitch`: on a head matching either spelling, run
        the action and then consume; otherwise change nothing. */
    method CheckSwitch(sw: Switch) returns (fault: Option<Fault>)
      modifies this
      ensures match CommandLine.CheckSwitch(Parsed(old(Config()), old(args)), sw)
        case Ok(p) => fault == None && Config() == p.settings && args == p.args
        case Err(c) => fault == Some(c.fault) && Config() == c.settings
      ensures analyzer == old(analyzer) && Snapshots() == old(Snapshots())
    {
      if |args| < 1 {
        return None;
      }
      if Matches(args[0], sw) {
        fault := RunAction(sw.action);
        if fault.Some? {
          return;
        }
        fault := Consume(sw.consumeOnApply);
      } else {
        fault := None;
      }
    }

    /** The five `CheckSwitch` calls, in table order; the first exception
        ends the parse. */
    method CheckSwitches() returns (crash: Option<Fault>)
      modifies this
      ensures match CommandLine.CheckSwitches(Parsed(old(Config()), old(args)), Switches)
        case Ok(p) => crash == None && Config() == p.settings && args == p.args
        case Err(c) => crash == Some(c.fault) && Config() == c.settings
      ensures analyzer == old(analyzer) && Snapshots() == old(Snapshots())
    {
      for k := 0 to |Switches|
        invariant Snapshots() == old(Snapshots()) && analyzer == old(analyzer)
        invariant CommandLine.CheckSwitches(Parsed(Config(), args), Switches[k..])
               == CommandLine.CheckSwitches(Parsed(old(Config()), old(args)), Switches)
      {
        assert Switches[k..][0] == Switches[k] && Switches[k..][1..] == Switches[k + 1..];
        crash := CheckSwitch(Switches[k]);
        if crash.Some? {
          return;
        }
      }
      assert Switches[|Switches|..] == [];
      crash := None;
    }

    /** The `try` block after the switches: a new host for the first
        remaining argument, with the others joined as its arguments, is
        started; with nothing left, `args[0]` throws and the `catch` shows
        the help. */
    method StartAnalyzer()
      modifies this
      ensures Config() == Finish(Parsed(old(Config()), old(args))).settings
      ensures args == old(args) && Snapshots() == old(Snapshots())
      ensures old(args) == [] ==> analyzer == old(analyzer)
      ensures old(args) != [] ==>
        && analyzer != null && fresh(analyzer) && analyzer.Valid()
        && analyzer.command == old(args)[0] && analyzer.arguments == Join(old(args)[1..])
        && analyzer.hostTask == HostModel.Running
    {
      if args == [] {
        Help();
      } else {
        var host := new ServerHost.CliServerHost(args[0], Join(args[1..]));
        var started := host.Start();
        analyzer := started.value;
      }
    }

    /** Parses the process command line (program name first): the switches
        at the head, then the analyzer command and its arguments, or the
        help when nothing is left. On success the analyzer host is new,
        started, and runs the named command. An exception escaping a switch
        ends the parse with `crash` set. */
    method ParseCommandLineArguments(commandLine: seq<string>) returns (crash: Option<Fault>)
      modifies this
      ensures match Parse(old(Config()), commandLine)
        case Err(c) => crash == Some(c.fault) && Config() == c.settings && analyzer == old(analyzer)
        case Ok(cfg) =>
          && crash == None && Config() == cfg.settings
          && (cfg.analyzer == None ==> analyzer == old(analyzer))
          && (cfg.analyzer.Some? ==>
                && analyzer != null && fresh(analyzer) && analyzer.Valid()
                && analyzer.command == cfg.analyzer.value.command
                && analyzer.arguments == cfg.analyzer.value.arguments
                && analyzer.hostTask == HostModel.Running)
      ensures Snapshots() == old(Snapshots())
    {
      args := if commandLine == [] then [] else commandLine[1..];
      crash := CheckSwitches();
      if crash.Some? {
        return;
      }
      StartAnalyzer();
    }

    /** `lock (_lock) _currentOutput = outputBytes;` in `UpdateImage`: a new
        pixel array becomes the current snapshot. */
    method Publish(pixels: seq<byte>)
      requires Valid()
      modifies this
      ensures Valid() && Snapshots() == Analysis.Publish(old(Snapshots()), pixels)
      ensures Config() == old(Config()) && args == old(args) && analyzer == old(analyzer)
    {
      currentOutput := Some(Snapshot(nextId, pixels));
      nextId := nextId + 1;
    }

    /** The snapshots `UpdateImage` publishes while a query is awaited. */
    method PublishEach(ps: seq<seq<byte>>)
      requires Valid()
      modifies this
      ensures Valid() && Snapshots() == PublishAll(old(Snapshots()), ps)
      ensures Config() == old(Config()) && args == old(args) && analyzer == old(analyzer)
    {
      for j := 0 to |ps|
        invariant Valid() && PublishAll(Snapshots(), ps[j..]) == PublishAll(old(Snapshots()), ps)
        invariant Config() == old(Config()) && args == old(args) && analyzer == old(analyzer)
      {
        assert ps[j..][0] == ps[j] && ps[j..][1..] == ps[j + 1..];
        Publish(ps[j]);
      }
      assert ps[|ps|..] == [];
    }

    /** One round of the `TryAnalyze` loop after the query for `o` was sent:
        the snapshots published during await `i`, then the reply, then the
        check whether the snapshot analysed is still the current one. */
    method Round(o: Snapshot, awaits: seq<Await>, i: nat) returns (ended: Option<AnalyzeEnd>)
      requires Valid() && i < |awaits|
      requires analyzedOutput == Some(o) && currentOutput == Some(o) && analyzing
      modifies this
      ensures Valid() && Config() == old(Config()) && args == old(args) && analyzer == old(analyzer)
      ensures ended.Some? ==>
        Loop(old(Snapshots()), o, awaits[i..]) == Outcome(Snapshots(), ended.value, [Encode(o.pixels)])
      ensures ended.None? ==>
        && currentOutput.Some? && analyzedOutput == currentOutput && analyzing
        && var r := Loop(Snapshots(), currentOutput.value, awaits[i + 1..]);
           Loop(old(Snapshots()), o, awaits[i..]) == Outcome(r.state, r.end, [Encode(o.pixels)] + r.queries)
    {
      assert awaits[i..][0] == awaits[i] && awaits[i..][1..] == awaits[i + 1..];
      PublishAllFacts(Snapshots(), awaits[i].published);
      PublishEach(awaits[i].published);
      if awaits[i].reply.Threw? {
        return Some(Faulted);
      }
      response := awaits[i].reply.text;
      if analyzedOutput == currentOutput {
        analyzedOutput := None;
        analyzing := false;
        return Some(CaughtUp);
      }
      analyzedOutput := currentOutput;
      ended := None;
    }

    /** The `while (true)` loop of `TryAnalyze`, entered with `o` both
        current and under analysis. */
    method AnalyzeLoop(o: Snapshot, awaits: seq<Await>) returns (end: AnalyzeEnd, queries: seq<string>)
      requires Valid()
      requires analyzedOutput == Some(o) && currentOutput == Some(o) && analyzing
      modifies this
      ensures Valid() && Outcome(Snapshots(), end, queries) == Loop(old(Snapshots()), o, awaits)
      ensures Config() == old(Config()) && args == old(args) && analyzer == old(analyzer)
    {
      var cur := o;
      var i := 0;
      queries := [];
      ghost var goal := Loop(Snapshots(), o, awaits);
      assert awaits[0..] == awaits;
      while true
        invariant 0 <= i <= |awaits| && Valid()
        invariant analyzedOutput == Some(cur) && currentOutput == Some(cur) && analyzing
        invariant Config() == old(Config()) && args == old(args) && analyzer == old(analyzer)
        invariant var r := Loop(Snapshots(), cur, awaits[i..]);
          goal == Outcome(r.state, r.end, queries + r.queries)
        decreases |awaits| - i
      {
        ghost var before := queries;
        var q := Encode(cur.pixels);
        queries := queries + [q];
        if i == |awaits| {
          return Awaiting, queries;
        }
        var ended := Round(cur, awaits, i);
        if ended.Some? {
          return ended.value, queries;
        }
        cur := currentOutput.value;
        i := i + 1;
        ghost var r := Loop(Snapshots(), cur, awaits[i..]);
        assert before + ([q] + r.queries) == queries + r.queries;
      }
    }

    /** `TryAnalyze`: the in-flight guard, then one query per round, built
        from the snapshot under analysis, until the snapshot analysed is
        still the current one after the reply. The replies and the
        snapshots published during each await come from `awaits`. */
    method TryAnalyze(awaits: seq<Await>) returns (end: AnalyzeEnd, queries: seq<string>)
      requires Valid()
      modifies this
      ensures Valid() && Outcome(Snapshots(), end, queries) == Analyze(old(Snapshots()), awaits)
      ensures Config() == old(Config()) && args == old(args) && analyzer == old(analyzer)
    {
      if analyzedOutput.Some? {
        return InFlight, [];
      }
      var output := currentOutput;
      analyzedOutput := currentOutput;
      analyzing := true;
      if output == None {
        return Faulted, [];
      }
      assert Snapshots() == old(Snapshots()).(analyzed := output, analyzing := true);
      end, queries := AnalyzeLoop(output.value, awaits);
    }
  }
}

=== FILE: Wrappers.dfy ===
/** Option and Result values used for the nulls and the exceptions of the modelled code. */
module Wrappers {

  /** `None` stands for a C# `null`. */
  datatype Option<+T> = None | Some(value: T)

  /** `Err` stands for an exception thrown to the caller. */
  datatype Result<+T, +E> = Ok(value: T) | Err(error: E)
}
